=== FILE: README.md ===
# Sandboxed file service and bookmark store, modelled in Dafny

This project models the service layer of a small remote file manager. It has two parts.

- **File service** (`services/FileService.ts`). Every request names a path relative to a
  sandbox root, `BASE_PATH = <cwd>/data`. `toAbsPath` resolves that path lexically,
  the way Node's `path.resolve` does. `hasAccess` accepts a resolved path unless
  `path.relative(BASE_PATH, target)` starts with `..`. The ten operations are `read`,
  `dir`, `stat`, `touch`, `mkdir`, `cp`, `mv`, `write`, `scp` and `rm`. Each one is a short
  decision procedure: does the path exist, is it a file or a directory, does it pass the
  access check. Each ends in an error or in a change to the file tree.
- **Bookmark store** (`services/BookmarkService.ts`, `schemas/Bookmark.ts`). This is a Realm
  table of records with a UUID `_id`, a path, a type, a user, a collection and a category.
  The operations are `create`, `update`, `remove`, `getMarkers`, `getCollection`,
  `removePath` and `renamePath`. `convert` turns a record into the shape callers receive,
  with the id written as text.

Layout:

| file | module | contents |
|---|---|---|
| `results.dfy` | `Results` | `Option` and `Result` |
| `paths.dfy` | `Paths` | paths as sequences of segments: JavaScript `split("/")` and `join`, Node's lexical `resolve`, `relative`, `basename`; `hasAccess` and `toAbsPath` with their laws |
| `trees.dfy` | `Trees` | the file tree as a map from absolute paths to `File(content)` or `Directory`; well-formedness; the fs-extra primitives `remove`, `ensureDir`, and copying a subtree |
| `file_service.dfy` | `FileService` | the ten operations, plus the corrected `mv` and `scp` |
| `file_service_proofs.dfy` | `FileServiceProofs` | confinement, well-formedness, the empty-path asymmetries, the two escape counterexamples, a short end-to-end scenario |
| `uuids.dfy` | `Uuids` | 16-byte UUIDs, the `toHexString` text form (8-4-4-4-12, lower case) and its parser |
| `bookmarks.dfy` | `Bookmarks` | records, the store as a sequence, and the bookmark operations |
| `bookmark_proofs.dfy` | `BookmarkProofs` | filter laws, store order, frame lemmas, uniqueness invariants, and counterexamples for `update` and `renamePath` |

Modelling choices:

- A path is `seq<string>` of segments, and `[]` is `/`. Resolution splits the user's string
  on `/` with JavaScript semantics, so empty segments are kept. It then folds the segments
  onto the base: `""` and `"."` vanish, `".."` drops the last segment and stops at the root,
  and a leading `/` starts again at the root.
- `BASE_PATH` is a parameter `base`. It is a normal absolute path with at least one segment.
  `Paths.BasePath` computes it from a working directory.
- A library failure inside fs-extra or Node is the error `Io`. An error carries no tree, so
  whatever a failing call may already have changed is not tracked (see "Left out").
  The `fs.cp` call passes an error callback that only logs, so a failing directory copy
  still yields `Ok`. A copy into itself is refused before anything is written; on a clash
  further down the model writes nothing (see "Left out").
- The store is a `seq<Record>`, read as one admissible iteration order of the Realm table
  (see "Left out" on ordering). Each `realm.write` block is one transition on it. `Array.prototype.find` becomes `FindFirst` and `filter` becomes `Select`.
- `new UUID()` is random. `create` therefore takes the new id as a parameter, `nextId`, which
  may collide with a stored id; `realm.create` then throws, and the model returns `DuplicateId`.

## Model

| member | source | states |
|---|---|---|
| Paths.BasePath | services/FileService.ts:8 | the sandbox root resolved from any working directory is a normal absolute path whose last segment is `data` |
| Paths.SplitJoin | services/FileService.ts:11 | splitting the `/`-join of separator-free segments gives back exactly those segments |
| Paths.JoinSplit | services/FileService.ts:11 | joining the pieces of a split with `/` rebuilds the original string, so splitting loses nothing |
| Paths.SplitCons | services/FileService.ts:16 | a leading separator-free piece followed by `/` splits off as its own first segment |
| Paths.CommonPrefixLength | services/FileService.ts:11 | the length where two paths first differ: both agree before it, and they differ at it unless one path ends there |
| Paths.Split | services/FileService.ts:11 | `split('/')`: at least one piece and no piece contains a separator; `Paths.JoinSplit` and `Paths.SplitJoin` show it is undone by joining |
| Paths.RelativeRoundTrip | services/FileService.ts:11 | resolving the relative path from `from` to `to` against `from` lands on `to`, which is the defining law of `path.relative` |
| Paths.Relative | services/FileService.ts:11 | `path.relative` as segments; its meaning is `Paths.RelativeRoundTrip`: resolving the result against `from` gives `to` back |
| Paths.HasAccess | services/FileService.ts:10-13 | `hasAccess`: the relative path from the root does not start with `..`; by `Paths.HasAccessIffWithin` this holds exactly when the target is the root or lies below it |
| Paths.HasAccessIffWithin | services/FileService.ts:10-13 | the access check passes exactly when the sandbox root is a segment-wise prefix of the target, in both directions |
| Paths.BaseHasAccess | services/FileService.ts:10-13 | the sandbox root itself passes the access check, because the relative path from it to itself is empty |
| Paths.ToAbsPath | services/FileService.ts:15-17 | the result is missing exactly when the input is the empty string; otherwise it is a normalised absolute path |
| Paths.ToAbsPathConfined | services/FileService.ts:15-17 | a non-empty input with no `..` segment resolves beneath the root and passes the access check |
| Paths.ToAbsPathReRoots | services/FileService.ts:15-17 | the `./` prefix neutralises a leading `/`: `"/p"` resolves where `"p"` does |
| Paths.ToAbsPathDot | services/FileService.ts:15-17 | `"."` resolves to the sandbox root itself |
| Paths.ToAbsPathParentEscapes | services/FileService.ts:10-17 | `".."` resolves to the root's parent, and that path fails the access check |
| Paths.ToAbsPathUpAndBack | services/FileService.ts:10-17 | `"../"` followed by the root's own name (`"../data"`) climbs out and back in, and resolves to the root, which passes the check |
| Paths.WalkNormal | services/FileService.ts:16 | normal segments are appended unchanged by normalisation |
| Paths.WalkExtends | services/FileService.ts:16 | without `..` segments, normalisation only ever extends the starting path |
| Paths.WalkUp | services/FileService.ts:16 | `k` leading `..` segments remove the last `k` segments of the starting path |
| Paths.Walk | services/FileService.ts:16 | the normalisation inside `path.resolve`: the result is a normal absolute path and never longer than the start plus the segments; `Paths.WalkNormal`, `Paths.WalkExtends` and `Paths.WalkUp` state what each kind of segment does |
| Paths.Resolve | services/FileService.ts:16 | `path.resolve(from, rel)` always yields a normal absolute path; `Paths.ResolveChild` and `Paths.ResolveAbsolute` give its value for a plain and a `/`-led name |
| Paths.Basename | services/FileService.ts:114 | `path.basename`: `""` for the root, otherwise the last segment, so that the parent followed by it rebuilds the path |
| Paths.ResolveChild | services/FileService.ts:115 | resolving a plain name against a directory appends that name |
| Paths.ResolveAbsolute | services/FileService.ts:176 | resolving `"/name"` ignores the directory and yields the top-level path `/name` |
| Trees.Prune | services/FileService.ts:187 | `fs.remove`: keeps exactly the entries outside the removed subtree, with their nodes unchanged |
| Trees.EnsureDirs | services/FileService.ts:151 | `fs.ensureDir`: adds every missing prefix of the path as a directory and keeps every existing entry |
| Trees.Graft | services/FileService.ts:112 | the copy of a subtree: every source entry appears at its rebased place, and nothing else appears |
| Trees.PruneWellFormed | services/FileService.ts:187 | removing a subtree keeps every entry's parent a present directory |
| Trees.EnsureDirsWellFormed | services/FileService.ts:151 | when no file lies on the way, creating the directories keeps the tree well formed and leaves the path a directory |
| Trees.InsertWellFormed | services/FileService.ts:78 | adding a node under an existing directory keeps the tree well formed |
| FileService.OpenTarget | services/FileService.ts:20 | the read-side operations map the empty path to the sandbox root |
| FileService.Read | services/FileService.ts:19-27 | succeeds exactly when the resolved path exists and passes the check, and then returns that path; otherwise "No permission" |
| FileService.Children | services/FileService.ts:36-47 | the listing holds exactly one entry per child of the directory, with the child's own kind |
| FileService.Dir | services/FileService.ts:29-49 | succeeds exactly when the path exists, passes the check and is a directory, and then lists exactly its children; a missing path and an escaping path give the same error |
| FileService.Stat | services/FileService.ts:51-65 | succeeds exactly when the path exists and passes the check; reports the node's kind and, as the name, `basename` of the resolved path, which is the root's own name for the empty path |
| FileService.Touch | services/FileService.ts:67-81 | the access check is on the parent, and a parent outside the sandbox is exactly the "No permission" case; an existing target is "File already exists"; a file in the way of the parents is a library failure (`Io`), and no other error occurs; on success a new empty file appears at the target, every old entry is kept, and only prefixes of the target are added |
| FileService.CreateFile | services/FileService.ts:78 | `fs.createFile` on a missing path succeeds exactly when no file stands in the way of its parents, else `Io`; it adds an empty file there, keeps every old entry, and adds only missing parents, as directories |
| FileService.Mkdir | services/FileService.ts:83-93 | the access check is on the parent; on success exactly one new directory is added and everything else is kept; an existing path or a missing parent fails with an error other than "No permission" |
| FileService.Write | services/FileService.ts:158-166 | the empty path is refused; succeeds exactly on an existing file within the sandbox, and replaces only that file's content |
| FileService.Rm | services/FileService.ts:180-188 | the empty path is refused; succeeds exactly when the path exists and passes the check, and then removes exactly the subtree at that path |
| FileService.CopyDir | services/FileService.ts:111-112 | a recursive copy puts every entry of the source subtree, with its node, at its rebased place under the target when nothing clashes; every entry of the result is either an old entry with its old node or a copy of the source entry it was rebased from; every existing entry is kept and nothing outside the target subtree changes; a copy into itself leaves the tree as it was, since Node refuses it before writing and the error only reaches the logging callback |
| FileService.Cp | services/FileService.ts:95-122 | both paths must be non-empty, existing and within the sandbox, else "No permission"; a target that is not a directory is "Target path should be a directory"; a file lands at `target/basename(source)`, and an existing one there is "Target file already exists"; otherwise every other entry keeps its node; a directory's subtree is copied onto the target as `CopyDir` states; nothing outside the target changes and the source is never removed |
| FileService.CopyFile | services/FileService.ts:114-120 | the file branch of `cp`: "Target file already exists" exactly when `target/basename(source)` exists; otherwise exactly that entry is added, with the source's node, and every other entry is kept |
| FileService.Relocate | services/FileService.ts:151-152 | every entry of the source subtree arrives, with its node, at its rebased place under the destination; everything under the destination comes from the source, so nothing of an overwritten destination is left; entries outside source and destination stay; the only other new entries are the destination's missing parents, as directories |
| FileService.MoveEntry | services/FileService.ts:145-152 | succeeds exactly when the source and destination are not inside one another, no node of the other kind sits at the destination, and no file stands in the way of its parents, and every failure is `Io`; a successful move carries the whole source subtree to its rebased place at the destination, leaves nothing of the old destination and nothing under the source, keeps every entry outside both, and adds only the destination's missing parents |
| FileService.MoveDestination | services/FileService.ts:141-149 | in rename mode or onto a file the destination is the target itself; onto a directory it is the target followed by the source's basename |
| FileService.Mv | services/FileService.ts:124-156 | without rename both paths must exist and pass the check; with rename only the source is checked and an existing target is "Target file already exists"; a directory target receives `target/basename(source)`; once those guards pass, the move succeeds exactly under `MoveEntry`'s conditions on that destination and otherwise fails with `Io`; on success the whole source subtree arrives at the destination, nothing else lies under it, the source is gone, entries outside both stay, and the only other new entries are the destination's missing parents |
| FileService.Scp | services/FileService.ts:168-178 | succeeds exactly when the directory exists and passes the check, and then names `resolve(dir, originalFilename)` as the destination, which is itself not checked |
| FileService.MvChecked | services/FileService.ts:124-138 | the corrected move: a rename whose target resolves outside the sandbox is refused with "No permission", and in every other case the result is exactly the original move's |
| FileService.ScpChecked | services/FileService.ts:168-178 | the corrected upload: every destination it returns lies inside the sandbox; it succeeds whenever the original does with such a destination, and then returns the same one |
| FileServiceProofs.DotRefusedByCreators | services/FileService.ts:67-93 | `touch(".")` and `mkdir(".")` are refused, since the root's parent fails the check, while `read(".")` and `rm(".")` are allowed |
| FileServiceProofs.EmptyPathAsymmetry | services/FileService.ts:19-93 | the empty path means the root for `read`, `dir` and `stat`, and is refused by `write`, `rm`, `touch` and `mkdir` |
| FileServiceProofs.TouchTwice | services/FileService.ts:74-77 | touching the same path a second time is "File already exists" |
| FileServiceProofs.RmDotRemovesRoot | services/FileService.ts:180-188 | `rm(".")` passes the guard and removes the sandbox root with everything in it |
| FileServiceProofs.TouchConfined | services/FileService.ts:67-81 | a successful `touch` changes nothing outside the sandbox |
| FileServiceProofs.MkdirConfined | services/FileService.ts:83-93 | a successful `mkdir` changes nothing outside the sandbox |
| FileServiceProofs.WriteConfined | services/FileService.ts:158-166 | a successful `write` changes nothing outside the sandbox |
| FileServiceProofs.RmConfined | services/FileService.ts:180-188 | a successful `rm` changes nothing outside the sandbox |
| FileServiceProofs.CpConfined | services/FileService.ts:95-122 | a successful `cp` changes nothing outside the sandbox |
| FileServiceProofs.MvConfined | services/FileService.ts:124-156 | a successful move without rename changes nothing outside the sandbox |
| FileServiceProofs.MvCheckedConfined | services/FileService.ts:124-156 | every successful corrected move, in either mode, changes nothing outside the sandbox |
| FileServiceProofs.MoveEntryConfined | services/FileService.ts:145-152 | a move between two paths inside the sandbox changes nothing outside it |
| FileServiceProofs.TouchWellFormed | services/FileService.ts:78 | `touch` keeps every entry's parent a present directory |
| FileServiceProofs.MkdirWellFormed | services/FileService.ts:90 | `mkdir` keeps the tree well formed |
| FileServiceProofs.WriteWellFormed | services/FileService.ts:165 | `write` keeps the tree well formed |
| FileServiceProofs.RmWellFormed | services/FileService.ts:187 | `rm` keeps the tree well formed |
| FileServiceProofs.CopyDirWellFormed | services/FileService.ts:112 | copying one directory into another keeps the tree well formed |
| FileServiceProofs.CpWellFormed | services/FileService.ts:95-122 | `cp` keeps the tree well formed |
| FileServiceProofs.RelocateWellFormed | services/FileService.ts:151-152 | moving a directory after `ensureDir` keeps the tree well formed |
| FileServiceProofs.MvWellFormed | services/FileService.ts:124-156 | `mv`, in both modes, keeps the tree well formed |
| FileServiceProofs.ToAbsPathSibling | services/FileService.ts:15-17 | `"../name"` resolves to a sibling of the root, outside the sandbox |
| FileServiceProofs.EndToEnd | services/FileService.ts:19-188 | `mkdir docs`, `touch docs/a.txt`, `write`, `read` and `rm docs` compose as expected: `stat` reports the new kinds, the content is stored, and after `rm` the root listing has no `docs` entry |
| FileServiceProofs.MvRenameEscapes | services/FileService.ts:127-131 | rename mode moves `a` to `../b`, outside the sandbox, on a well-formed tree |
| FileServiceProofs.MvCheckedRefusesEscape | services/FileService.ts:131 | the corrected move refuses that same rename |
| FileServiceProofs.ScpEscapes | services/FileService.ts:176 | an upload into `.` with the file name `/x` is written to `/x`, outside the sandbox |
| FileServiceProofs.ScpCheckedRefusesEscape | services/FileService.ts:176 | the corrected upload refuses that same file name |
| Uuids.DigitRoundTrip | services/BookmarkService.ts:34 | reading back a hexadecimal digit gives its value |
| Uuids.HexBytes | services/BookmarkService.ts:34 | two hexadecimal digits per byte |
| Uuids.ParseHexBytes | services/BookmarkService.ts:34 | parsing the hexadecimal text of bytes gives those bytes back |
| Uuids.HexParsedBytes | services/BookmarkService.ts:34 | any text that parses as bytes is exactly the canonical text of those bytes |
| Uuids.Hex | services/BookmarkService.ts:34 | the text form of an id has 36 characters |
| Uuids.HexPieces | services/BookmarkService.ts:34 | the text form is the five byte groups 4-2-2-2-6 in hexadecimal, separated by dashes |
| Uuids.ParseHexRoundTrip | services/BookmarkService.ts:34 | parsing the text form of an id gives the id back |
| Uuids.HexRoundTrip | services/BookmarkService.ts:34 | any text that parses as an id is exactly that id's text form, so text and ids correspond one to one |
| Uuids.HexInjective | services/BookmarkService.ts:74 | two ids have the same text form exactly when they are equal, so matching on text is matching on the id |
| Bookmarks.FindFirst | services/BookmarkService.ts:45-51 | `find`: the index of the first matching record, with no match before it, or the store length when none matches |
| Bookmarks.Select | services/BookmarkService.ts:109 | `filter`: keeps exactly the records that match, and never grows |
| Bookmarks.Convert | services/BookmarkService.ts:33-40 | every field is carried over, and the text id parses back to the record's id |
| Bookmarks.Views | services/BookmarkService.ts:110 | `map(convert)`: one converted view per record, in the same order |
| Bookmarks.ViewsMembers | services/BookmarkService.ts:110 | every view comes from some record, and every record's view is present |
| Bookmarks.Create | services/BookmarkService.ts:43-69 | fails "Alreay exists" exactly when some record has the same user, path, category and collection; otherwise fails exactly when `nextId` is already some record's `_id`, because `realm.create` throws on a taken primary key (`schemas/Bookmark.ts` line 11); otherwise appends exactly one record with the new id and the payload's fields, and returns that record converted, whose id is the new id in hex |
| Bookmarks.Patched | services/BookmarkService.ts:76-82 | the id never changes; the type is replaced when given; path, collection and category are replaced only by a non-empty value; the user stays when it already matches |
| Bookmarks.Truthy | services/BookmarkService.ts:77-81 | the JavaScript truthiness of an optional text field: present and non-empty; `Bookmarks.Patched` applies a field only when it holds |
| Bookmarks.Update | services/BookmarkService.ts:71-89 | "Not found" exactly when no record has that id and user; otherwise patches the first such record in place and changes nothing else |
| Bookmarks.Remove | services/BookmarkService.ts:91-104 | "Not found" exactly when no record has that id and user; otherwise deletes the first such record and keeps the others in order |
| Bookmarks.GetMarkers | services/BookmarkService.ts:106-112 | every record with that path and user appears converted, every view comes from such a record, and there is one view per such record |
| Bookmarks.GetCollection | services/BookmarkService.ts:114-120 | every record with that collection and user appears converted, every view comes from such a record, and there is one view per such record |
| Bookmarks.RemovePath | services/BookmarkService.ts:122-132 | afterwards no record has that path and user; every other record is kept, and nothing new appears |
| Bookmarks.RenamePath | services/BookmarkService.ts:134-145 | same length; records at the source path for that user get the target path and nothing else changes; all other records are untouched |
| BookmarkProofs.SelectAppend | services/BookmarkService.ts:109 | filtering distributes over concatenation, so the store order is kept |
| BookmarkProofs.SelectSplits | services/BookmarkService.ts:125 | the records at a path and the records elsewhere together account for the whole store |
| BookmarkProofs.SelectNested | services/BookmarkService.ts:125 | filtering a filtered store with a narrower condition is the same as filtering once |
| BookmarkProofs.ViewsAppend | services/BookmarkService.ts:110 | converting distributes over concatenation |
| BookmarkProofs.GetMarkersInStoreOrder | services/BookmarkService.ts:106-112 | the markers of a concatenated store are the markers of each part, in order |
| BookmarkProofs.GetCollectionInStoreOrder | services/BookmarkService.ts:114-120 | the same for collections |
| BookmarkProofs.RemovePathClears | services/BookmarkService.ts:122-132 | after `removePath`, `getMarkers` for that path and user is empty |
| BookmarkProofs.RemovePathFrame | services/BookmarkService.ts:122-132 | `getMarkers` for any other path or user is unchanged by `removePath` |
| BookmarkProofs.RemovePathCount | services/BookmarkService.ts:122-132 | `removePath` deletes exactly as many records as `getMarkers` reported |
| BookmarkProofs.RemovePathIdempotent | services/BookmarkService.ts:122-132 | a second `removePath` changes nothing; an empty match is not an error |
| BookmarkProofs.RenamePathAppend | services/BookmarkService.ts:134-145 | renaming works record by record, independently of position |
| BookmarkProofs.RenamePathMoves | services/BookmarkService.ts:134-145 | for distinct paths, nothing of the user stays at the source and the target gains exactly the source's records |
| BookmarkProofs.RenamePathClears | services/BookmarkService.ts:134-145 | for distinct paths, `getMarkers` at the source is empty afterwards |
| BookmarkProofs.RenamePathCarries | services/BookmarkService.ts:134-145 | every record that was at the source shows up at the target with its new path |
| BookmarkProofs.DistinctCons | services/BookmarkService.ts:45-54 | pairwise distinctness of a store with a first record splits into that record against the rest plus the rest |
| BookmarkProofs.SelectDistinct | services/BookmarkService.ts:125 | filtering keeps any pairwise distinctness |
| BookmarkProofs.DropDistinct | services/BookmarkService.ts:100 | deleting one record keeps any pairwise distinctness |
| BookmarkProofs.CreateKeepsKeysUnique | services/BookmarkService.ts:45-66 | `create` preserves "no two records share user, path, collection and category" |
| BookmarkProofs.CreateKeepsIdsUnique | schemas/Bookmark.ts:11 | every successful `create` preserves uniqueness of the primary key, since a taken id is refused |
| BookmarkProofs.CreateTwice | services/BookmarkService.ts:45-54 | creating the same bookmark twice fails the second time, leaving exactly one record with that key |
| BookmarkProofs.RemoveKeepsUnique | services/BookmarkService.ts:91-104 | `remove` preserves any pairwise distinctness, including unique keys and unique ids |
| BookmarkProofs.RemovePathKeepsUnique | services/BookmarkService.ts:122-132 | `removePath` preserves any pairwise distinctness |
| BookmarkProofs.RemoveSparesOthers | services/BookmarkService.ts:93-100 | `remove` for one user never deletes a record of another user: every such record keeps its count |
| BookmarkProofs.DropCount | services/BookmarkService.ts:100 | deleting one record leaves the count of every different record unchanged |
| BookmarkProofs.OwnedIsUnique | schemas/Bookmark.ts:11 | with unique ids, at most one record matches an id and user, so `update` and `remove` are unambiguous |
| BookmarkProofs.UpdateKeepsIdsAndOwner | services/BookmarkService.ts:74-82 | `update` never changes any record's id or user, and keeps the ids unique |
| BookmarkProofs.RenamePathKeepsIds | services/BookmarkService.ts:134-145 | `renamePath` keeps the ids unique |
| BookmarkProofs.TwoMarksUnique | services/BookmarkService.ts:45-54 | the two-record store used below has unique keys and unique ids |
| BookmarkProofs.TwoMarksOwner | services/BookmarkService.ts:74 | in that store the lookup by the second id finds the second record |
| BookmarkProofs.UpdateBreaksKeys | services/BookmarkService.ts:76-82 | `update` can move a record onto another record's key, so it does not preserve key uniqueness |
| BookmarkProofs.RenamePathBreaksKeys | services/BookmarkService.ts:139-143 | `renamePath` can merge two keys, so it does not preserve key uniqueness |

Some consequences of the code worth stating plainly:

- A leading `../` does not always escape. `"../data"` resolves back to the root
  (`Paths.ToAbsPathUpAndBack`).
- `rm(".")` passes the guard and deletes the sandbox root (`FileServiceProofs.RmDotRemovesRoot`).
- `update` patches the given fields of one record, found by id and user. It never replaces a
  set of records.
- A directory moved onto a file without rename reaches `fs.ensureDir` on a file, which fails
  inside the library (`Io`). The code has no error of its own for that case.
- The file service and the bookmark service never call each other, and the HTTP layer never
  calls the bookmark service. Moving or deleting a file leaves its bookmarks as they were, and
  `getCollection` does not look at the file tree.

## Left out

- `index.ts`, the HTTP adapter: routing, status codes, body parsing and the concurrent upload
  fan-out are adapter code. It calls `mv` without the rename flag. `index.ts` is not part of
  this model.
- Streams: `read` returns a read stream and `scp` pipes an upload into a write stream. The
  model returns only the path the stream would open.
- Timing: the `fs.cp` and `fs.copyFile` callbacks (lines 112 and 120) are not awaited. Each copy
  is treated as completed.
- FileService.CopyDir: Node's `fs.cp` checks each item as it reaches it, in `readdir` order, and
  stops at the first node of the other kind. Items copied before that stay. The model writes
  nothing on such a clash, which is Node's outcome only when the clash is the first item reached.
  So `FileService.CopyDir` and `FileService.Cp` promise the unchanged tree only for a copy into
  itself, and for a clash only that every entry is old or a copy of its source.
- Partial effects of a failing library call are not modelled. Such a call is `Io`, and the model
  returns no tree for it.
- FileService.Mv: for a directory source, line 151 runs `fs.ensureDir` on the destination before
  `fs.move`. When the move then fails, the directories it created stay. For example,
  `mv("a", "a/x/y")` on a directory `a` leaves `a/x/y` behind. The model returns `Io` and does
  not describe the tree after the failure.
- FileService.MoveEntry: a directory moved onto one of its own ancestors (`mv("x/x", ".")`
  without rename, destination `x`) is `Io`. fs-extra's `overwrite` path removes the destination
  before renaming, which takes the source with it. The model does not describe what is left.
- Stat metadata (sizes, timestamps, modes) carries no logic. `Entry` keeps only the name and the kind.
- Symlinks, Windows separators and node kinds other than file and directory are not modelled.
- `connect`, the lazily opened Realm singleton (lines 18-31), is not modelled. The store is passed
  explicitly.
- `query` (lines 147-153) forwards a Realm Query Language string to a foreign parser. It is not modelled.
- The "Failed to mark" branch (line 68) cannot be reached: `realm.create` returns the record
  or throws. `Bookmarks.Create` has no such error.
- The final `else` of `mv` (lines 153-155) cannot be reached: lines 140 and 146 test
  complementary conditions. `FileService.Mv` has no such branch.
- Bookmarks.Create: the schema stores the record type as any string. The model admits only
  the two values of the TypeScript type, `"file"` and `"directory"`.
- Concurrency between requests is not modelled. Each operation is one atomic step.
- Bookmarks.Create: Realm does not promise an iteration order for an unsorted `objects()`
  result. The model appends the new record last, and `Bookmarks.Remove` keeps the others in
  their order. So "the first matching record" (`Bookmarks.FindFirst`, `Bookmarks.Update`,
  `Bookmarks.Remove`) and store order (`BookmarkProofs.GetMarkersInStoreOrder`,
  `BookmarkProofs.GetCollectionInStoreOrder`) refer to one admissible order, not to one Realm
  guarantees. With unique ids (`BookmarkProofs.OwnedIsUnique`) which record is first does not
  matter to `update` and `remove`.

## Findings

| source | as written | input that shows it | evidently intended | confidence | as-written member | corrected member |
|---|---|---|---|---|---|---|
| services/FileService.ts:127-131 | with `rename` set, only the source is checked with `hasAccess`; the target's access is never checked | tree `{/, /data, /data/a}`, `mv("a", "../b", true)` moves the file to `/b` | the target of a rename must also lie within the sandbox | high, not executed | FileServiceProofs.MvRenameEscapes | FileServiceProofs.MvCheckedConfined |
| services/FileService.ts:176 | the upload is written to `resolve(absPath, originalFilename)`, and only `absPath` was checked | `scp(".", file named "/x")` writes to `/x` | the resolved upload destination must also pass `hasAccess` | high, not executed | FileServiceProofs.ScpEscapes | FileService.ScpChecked |

`FileService.MvChecked` adds the missing check on the rename target.
`FileServiceProofs.MvCheckedConfined` proves that every successful checked move, in either mode,
changes nothing outside the sandbox, and `FileServiceProofs.MvCheckedRefusesEscape` shows it
refusing the input above. `FileService.ScpChecked` checks the resolved destination: its contract
puts every successful destination inside the sandbox. `FileServiceProofs.ScpCheckedRefusesEscape`
shows it refusing the input above.

=== FILE: bookmark_proofs.dfy ===
/** Properties of the bookmark store across calls: filters keep store order,
    the cascade and the bulk rename touch exactly the records they name, which
    operations keep the (user, path, collection, category) key unique and which
    do not. */
module BookmarkProofs {
  import opened Results
  import opened Uuids
  import opened Bookmarks

  // ---------------------------------------------------------------------------
  // `filter` laws
  // ---------------------------------------------------------------------------

  /** Filtering distributes over concatenation, so results come in store order. */
  lemma {:induction false} SelectAppend(a: Store, b: Store, keep: Record -> bool)
    ensures Select(a + b, keep) == Select(a, keep) + Select(b, keep)
    decreases |a|
  {
    if |a| > 0 {
      assert (a + b)[1..] == a[1..] + b;
      SelectAppend(a[1..], b, keep);
    } else {
      assert a + b == b;
    }
  }

  /** A filter that keeps everything is the identity. */
  lemma {:induction false} SelectAll(s: Store, keep: Record -> bool)
    requires forall x :: x in s ==> keep(x)
    ensures Select(s, keep) == s
    decreases |s|
  {
    if |s| > 0 {
      assert forall x :: x in s[1..] ==> x in s;
      SelectAll(s[1..], keep);
      assert s == [s[0]] + s[1..];
    }
  }

  /** A filter that keeps nothing yields the empty list. */
  lemma {:induction false} SelectNone(s: Store, keep: Record -> bool)
    requires forall x :: x in s ==> !keep(x)
    ensures Select(s, keep) == []
    decreases |s|
  {
    if |s| > 0 {
      assert s[0] in s;
      assert forall x :: x in s[1..] ==> x in s;
      SelectNone(s[1..], keep);
    }
  }

  /** Filtering twice, the second time more strictly, is filtering once. */
  lemma {:induction false} SelectNested(s: Store, outer: Record -> bool, inner: Record -> bool)
    requires forall x :: x in s && inner(x) ==> outer(x)
    ensures Select(Select(s, outer), inner) == Select(s, inner)
    decreases |s|
  {
    if |s| > 0 {
      assert forall x :: x in s[1..] ==> x in s;
      SelectNested(s[1..], outer, inner);
      var head := if outer(s[0]) then [s[0]] else [];
      SelectAppend(head, Select(s[1..], outer), inner);
      if outer(s[0]) {
        assert Select(head, inner) == (if inner(s[0]) then [s[0]] else []) by {
          assert head[1..] == [];
        }
      }
    }
  }

  /** Every record is kept by exactly one of `AtPath` and `NotAtPath`. */
  lemma {:induction false} SelectSplits(s: Store, path: string, user: string)
    ensures |Select(s, AtPath(path, user))| + |Select(s, NotAtPath(path, user))| == |s|
    decreases |s|
  {
    if |s| > 0 {
      SelectSplits(s[1..], path, user);
    }
  }

  /** `.map(convert)` distributes over concatenation too. */
  lemma ViewsAppend(a: Store, b: Store)
    ensures Views(a + b) == Views(a) + Views(b)
  {
  }

  /** `getMarkers` of two stores one after the other is the markers of the
      first followed by those of the second: the store order is kept. */
  lemma GetMarkersInStoreOrder(a: Store, b: Store, path: string, user: string)
    ensures GetMarkers(a + b, path, user) == GetMarkers(a, path, user) + GetMarkers(b, path, user)
  {
    SelectAppend(a, b, AtPath(path, user));
    ViewsAppend(Select(a, AtPath(path, user)), Select(b, AtPath(path, user)));
  }

  lemma GetCollectionInStoreOrder(a: Store, b: Store, collection: string, user: string)
    ensures GetCollection(a + b, collection, user)
         == GetCollection(a, collection, user) + GetCollection(b, collection, user)
  {
    SelectAppend(a, b, InCollection(collection, user));
    ViewsAppend(Select(a, InCollection(collection, user)), Select(b, InCollection(collection, user)));
  }

  // ---------------------------------------------------------------------------
  // Cascade delete and bulk rename
  // ---------------------------------------------------------------------------

  /** After `removePath` the user has no marker left at that path. */
  lemma RemovePathClears(s: Store, path: string, user: string)
    ensures GetMarkers(RemovePath(s, path, user), path, user) == []
  {
    SelectNone(RemovePath(s, path, user), AtPath(path, user));
  }

  /** Every other (path, user) keeps exactly its markers, in the same order. */
  lemma RemovePathFrame(s: Store, path: string, user: string, path': string, user': string)
    requires path' != path || user' != user
    ensures GetMarkers(RemovePath(s, path, user), path', user') == GetMarkers(s, path', user')
  {
    SelectNested(s, NotAtPath(path, user), AtPath(path', user'));
  }

  /** Exactly the matching records go. */
  lemma RemovePathCount(s: Store, path: string, user: string)
    ensures |RemovePath(s, path, user)| == |s| - |GetMarkers(s, path, user)|
  {
    SelectSplits(s, path, user);
  }

  lemma RemovePathIdempotent(s: Store, path: string, user: string)
    ensures RemovePath(RemovePath(s, path, user), path, user) == RemovePath(s, path, user)
  {
    SelectAll(RemovePath(s, path, user), NotAtPath(path, user));
  }

  /** `renamePath` applied to a store split in two is the rename of each part. */
  lemma RenamePathAppend(a: Store, b: Store, source: string, target: string, user: string)
    ensures RenamePath(a + b, source, target, user)
         == RenamePath(a, source, target, user) + RenamePath(b, source, target, user)
  {
  }

  /** After `renamePath` with distinct paths the source has no marker left of
      that user, and the target has gained every one of them. */
  lemma {:induction false} RenamePathMoves(s: Store, source: string, target: string, user: string)
    requires source != target
    ensures Select(RenamePath(s, source, target, user), AtPath(source, user)) == []
    ensures |Select(RenamePath(s, source, target, user), AtPath(target, user))|
         == |Select(s, AtPath(target, user))| + |Select(s, AtPath(source, user))|
    decreases |s|
  {
    if |s| > 0 {
      var r := RenamePath(s, source, target, user);
      RenamePathMoves(s[1..], source, target, user);
      assert r[1..] == RenamePath(s[1..], source, target, user);
    }
  }

  lemma RenamePathClears(s: Store, source: string, target: string, user: string)
    requires source != target
    ensures GetMarkers(RenamePath(s, source, target, user), source, user) == []
  {
    RenamePathMoves(s, source, target, user);
  }

  /** Each record the user had at the source is now listed at the target. */
  lemma RenamePathCarries(s: Store, source: string, target: string, user: string, x: Record)
    requires x in s && x.path == source && x.user == user
    ensures Convert(x.(path := target)) in GetMarkers(RenamePath(s, source, target, user), target, user)
  {
    var r := RenamePath(s, source, target, user);
    var i :| 0 <= i < |s| && s[i] == x;
    assert r[i] == x.(path := target);
    assert r[i] in r;
  }

  // ---------------------------------------------------------------------------
  // Uniqueness of keys and ids
  // ---------------------------------------------------------------------------

  lemma DistinctCons(x: Record, t: Store, clash: (Record, Record) -> bool)
    ensures Distinct([x] + t, clash) <==> (forall y :: y in t ==> !clash(x, y)) && Distinct(t, clash)
  {
    var s := [x] + t;
    if (forall y :: y in t ==> !clash(x, y)) && Distinct(t, clash) {
      forall i, j | 0 <= i < j < |s| ensures !clash(s[i], s[j]) {
        if i == 0 {
          assert s[j] == t[j - 1];
        } else {
          assert s[i] == t[i - 1] && s[j] == t[j - 1];
        }
      }
    }
    if Distinct(s, clash) {
      forall y | y in t ensures !clash(x, y) {
        var j :| 0 <= j < |t| && t[j] == y;
        assert s[0] == x && s[j + 1] == y;
      }
      forall i, j | 0 <= i < j < |t| ensures !clash(t[i], t[j]) {
        assert s[i + 1] == t[i] && s[j + 1] == t[j];
      }
    }
  }

  /** Filtering keeps any pairwise distinctness. */
  lemma {:induction false} SelectDistinct(s: Store, keep: Record -> bool, clash: (Record, Record) -> bool)
    requires Distinct(s, clash)
    ensures Distinct(Select(s, keep), clash)
    decreases |s|
  {
    if |s| > 0 {
      assert s == [s[0]] + s[1..];
      DistinctCons(s[0], s[1..], clash);
      SelectDistinct(s[1..], keep, clash);
      if keep(s[0]) {
        DistinctCons(s[0], Select(s[1..], keep), clash);
      }
    }
  }

  /** Dropping one record keeps any pairwise distinctness. */
  lemma DropDistinct(s: Store, i: nat, clash: (Record, Record) -> bool)
    requires i < |s| && Distinct(s, clash)
    ensures Distinct(s[..i] + s[i + 1..], clash)
  {
    var r := s[..i] + s[i + 1..];
    forall a, b | 0 <= a < b < |r| ensures !clash(r[a], r[b]) {
      var a' := if a < i then a else a + 1;
      var b' := if b < i then b else b + 1;
      assert r[a] == s[a'] && r[b] == s[b'];
    }
  }

  /** `create` keeps the key unique: it appends only when no record has the key. */
  lemma CreateKeepsKeysUnique(s: Store, b: Bookmark, nextId: Uuid)
    requires UniqueKeys(s) && Create(s, b, nextId).Ok?
    ensures UniqueKeys(Create(s, b, nextId).value.0)
  {
    var r := Create(s, b, nextId).value.0;
    forall i, j | 0 <= i < j < |r| ensures !KeyClash(r[i], r[j]) {
      if j == |s| {
        assert !SameKey(s[i], b);
      }
    }
  }

  /** `create` keeps ids unique: it appends only when the generated id is not taken. */
  lemma CreateKeepsIdsUnique(s: Store, b: Bookmark, nextId: Uuid)
    requires UniqueIds(s) && Create(s, b, nextId).Ok?
    ensures UniqueIds(Create(s, b, nextId).value.0)
  {
    var r := Create(s, b, nextId).value.0;
    forall i, j | 0 <= i < j < |r| ensures !IdClash(r[i], r[j]) {
      if j == |s| {
        assert s[i].id != nextId;
      }
    }
  }

  /** Creating the same key twice: the second call is refused, and the store
      holds exactly one record with that key. */
  lemma CreateTwice(s: Store, b: Bookmark, id1: Uuid, id2: Uuid)
    requires Create(s, b, id1).Ok?
    ensures var s1 := Create(s, b, id1).value.0;
      && Create(s1, b, id2) == Err(AlreadyExists)
      && |Select(s1, HasKey(b))| == 1
  {
    var s1 := Create(s, b, id1).value.0;
    var x := s1[|s|];
    assert SameKey(x, b);
    SelectAppend(s, [x], HasKey(b));
    SelectNone(s, HasKey(b));
  }

  /** `remove` and `removePath` only drop records, so they keep both kinds of uniqueness. */
  lemma RemoveKeepsUnique(s: Store, id: string, user: string, clash: (Record, Record) -> bool)
    requires Distinct(s, clash) && Remove(s, id, user).Ok?
    ensures Distinct(Remove(s, id, user).value, clash)
  {
    var i :| 0 <= i < |s| && Remove(s, id, user).value == s[..i] + s[i + 1..];
    DropDistinct(s, i, clash);
  }

  lemma RemovePathKeepsUnique(s: Store, path: string, user: string, clash: (Record, Record) -> bool)
    requires Distinct(s, clash)
    ensures Distinct(RemovePath(s, path, user), clash)
  {
    SelectDistinct(s, NotAtPath(path, user), clash);
  }

  /** A record of another user is never removed by `remove`. */
  lemma RemoveSparesOthers(s: Store, id: string, user: string, x: Record)
    requires Remove(s, id, user).Ok? && x.user != user
    ensures multiset(Remove(s, id, user).value)[x] == multiset(s)[x]
  {
    var i :| 0 <= i < |s| && OwnedBy(s[i], id, user) && Remove(s, id, user).value == s[..i] + s[i + 1..];
    DropCount(s, i, x);
  }

  /** Dropping one record leaves the count of every other record as it was. */
  lemma DropCount(s: Store, i: nat, x: Record)
    requires i < |s| && s[i] != x
    ensures multiset(s[..i] + s[i + 1..])[x] == multiset(s)[x]
  {
    assert s == s[..i] + [s[i]] + s[i + 1..];
  }

  /** With unique ids at most one record answers to an (id, user) pair, so
      `update` and `remove` act on the only record they could mean. */
  lemma OwnedIsUnique(s: Store, id: string, user: string, i: nat, j: nat)
    requires UniqueIds(s) && i < |s| && j < |s|
    requires Owned(id, user)(s[i]) && Owned(id, user)(s[j])
    ensures i == j
  {
    HexInjective(s[i].id, s[j].id);
  }

  /** `update` never changes an id or the owner, so ids stay unique. */
  lemma UpdateKeepsIdsAndOwner(s: Store, p: Patch)
    requires Update(s, p).Ok?
    ensures var (s', q) := Update(s, p).value;
      && q.user == p.user
      && forall k :: 0 <= k < |s| ==> s'[k].id == s[k].id && s'[k].user == s[k].user
    ensures UniqueIds(s) ==> UniqueIds(Update(s, p).value.0)
  {
  }

  /** `renamePath` never changes an id, so ids stay unique. */
  lemma RenamePathKeepsIds(s: Store, source: string, target: string, user: string)
    requires UniqueIds(s)
    ensures UniqueIds(RenamePath(s, source, target, user))
  {
    var r := RenamePath(s, source, target, user);
    assert forall k :: 0 <= k < |s| ==> r[k].id == s[k].id by {
      forall k | 0 <= k < |s| ensures r[k].id == s[k].id {
        assert r[k].(path := s[k].path) == s[k];
      }
    }
  }

  // ---------------------------------------------------------------------------
  // The key is not kept by `update` and `renamePath`
  // ---------------------------------------------------------------------------

  /** Two "star" records of one user on different paths, with ids `u` and `v`. */
  function TwoMarks(u: Uuid, v: Uuid): Store {
    [Record(u, "a", File, "me", "star", "default"), Record(v, "b", File, "me", "star", "default")]
  }

  lemma TwoMarksUnique(u: Uuid, v: Uuid)
    requires u != v
    ensures UniqueKeys(TwoMarks(u, v)) && UniqueIds(TwoMarks(u, v))
  {
  }

  /** Only the second record answers to the second id. */
  lemma TwoMarksOwner(u: Uuid, v: Uuid)
    requires u != v
    ensures FindFirst(TwoMarks(u, v), Owned(Hex(v), "me")) == 1
  {
    var s := TwoMarks(u, v);
    HexInjective(u, v);
    assert !Owned(Hex(v), "me")(s[0]);
    assert Owned(Hex(v), "me")(s[1]);
  }

  /** Whatever the two ids, re-pointing the second record at the first one's
      path through `update` yields two records with the same key. */
  lemma UpdateBreaksKeys(u: Uuid, v: Uuid)
    requires u != v
    ensures UniqueKeys(TwoMarks(u, v))
    ensures Update(TwoMarks(u, v), Patch(Hex(v), "me", None, Some("a"), None, None)).Ok?
    ensures !UniqueKeys(Update(TwoMarks(u, v), Patch(Hex(v), "me", None, Some("a"), None, None)).value.0)
  {
    TwoMarksUnique(u, v);
    TwoMarksOwner(u, v);
    var s := TwoMarks(u, v);
    var p := Patch(Hex(v), "me", None, Some("a"), None, None);
    var i :| 0 <= i < |s| && OwnedBy(s[i], p.id, p.user)
      && Update(s, p).value.0 == s[i := Patched(s[i], p)];
    assert !OwnedBy(s[0], p.id, p.user);
    var r := s[1 := Patched(s[1], p)];
    assert Update(s, p).value.0 == r;
    assert r[1].path == "a" && r[0] == s[0];
    assert KeyClash(r[0], r[1]);
  }

  /** Renaming "b" to "a" for the same user yields two records with the same key. */
  lemma RenamePathBreaksKeys(u: Uuid, v: Uuid)
    requires u != v
    ensures UniqueKeys(TwoMarks(u, v))
    ensures !UniqueKeys(RenamePath(TwoMarks(u, v), "b", "a", "me"))
  {
    TwoMarksUnique(u, v);
    var s := TwoMarks(u, v);
    var r := RenamePath(s, "b", "a", "me");
    assert "a" != "b";
    assert r[0] == s[0] && r[1].path == "a";
    assert KeyClash(r[0], r[1]);
  }
}

=== FILE: bookmarks.dfy ===
/** The bookmark store: a sequence of records in store order, each tagging a
    path with a user, a collection and a category. Every `realm.write` block of
    the service is one atomic step from a store to the next; the lazily opened
    Realm handle is left out. */
module Bookmarks {
  import opened Results
  import opened Uuids

  /** The `type` field: "file" | "directory". */
  datatype FileType = File | Directory

  /** What a caller supplies to `create`. */
  datatype Bookmark = Bookmark(path: string, kind: FileType, user: string, collection: string, category: string)

  /** A stored record: the payload plus its `_id`. */
  datatype Record = Record(id: Uuid, path: string, kind: FileType, user: string, collection: string, category: string)

  /** What `convert` returns: the record with its id as text. */
  datatype View = View(id: string, kind: FileType, path: string, user: string, collection: string, category: string)

  /** The payload of `update`: `id` and `user` select the record, every other
      field is optional. */
  datatype Patch = Patch(id: string, user: string, kind: Option<FileType>, path: Option<string>,
                         collection: Option<string>, category: Option<string>)

  datatype StoreError =
    | AlreadyExists   // "Alreay exists"
    | NotFound        // "Not found"
    | DuplicateId     // `realm.create` throws on a primary key already in the table

  type Store = seq<Record>

  // ---------------------------------------------------------------------------
  // `find` and `filter`
  // ---------------------------------------------------------------------------

  /** `Array.prototype.find` as an index: the first record that matches, or |s|. */
  function FindFirst(s: Store, matches: Record -> bool): (i: nat)
    ensures i <= |s|
    ensures i < |s| ==> matches(s[i])
    ensures forall j :: 0 <= j < i ==> !matches(s[j])
  {
    if |s| == 0 then 0
    else if matches(s[0]) then 0
    else 1 + FindFirst(s[1..], matches)
  }

  /** `Array.prototype.filter`: the matching records, in store order. */
  function Select(s: Store, keep: Record -> bool): (r: Store)
    ensures |r| <= |s|
    ensures forall x :: x in r <==> x in s && keep(x)
  {
    if |s| == 0 then []
    else (if keep(s[0]) then [s[0]] else []) + Select(s[1..], keep)
  }

  /** `convert`: the record as returned to callers, its id rendered as text. */
  function Convert(r: Record): (v: View)
    ensures ParseHex(v.id) == Some(r.id)
    ensures v.path == r.path && v.kind == r.kind && v.user == r.user
    ensures v.collection == r.collection && v.category == r.category
  {
    ParseHexRoundTrip(r.id);
    View(Hex(r.id), r.kind, r.path, r.user, r.collection, r.category)
  }

  /** `.map(convert)`. */
  function Views(s: Store): (r: seq<View>)
    decreases |s|
    ensures |r| == |s|
    ensures forall i :: 0 <= i < |s| ==> r[i] == Convert(s[i])
  {
    if |s| == 0 then [] else [Convert(s[0])] + Views(s[1..])
  }

  /** Every view comes from a record of the store, and every record has its view. */
  lemma ViewsMembers(s: Store)
    ensures forall v :: v in Views(s) ==> exists x :: x in s && v == Convert(x)
    ensures forall x :: x in s ==> Convert(x) in Views(s)
  {
    var r := Views(s);
    forall v | v in r ensures exists x :: x in s && v == Convert(x) {
      var i :| 0 <= i < |r| && r[i] == v;
      assert s[i] in s;
    }
    forall x | x in s ensures Convert(x) in r {
      var i :| 0 <= i < |s| && s[i] == x;
      assert r[i] == Convert(x);
    }
  }

  // ---------------------------------------------------------------------------
  // Keys and selectors
  // ---------------------------------------------------------------------------

  /** The record carries the payload's (user, path, category, collection);
      the type is not part of the key. */
  predicate SameKey(r: Record, b: Bookmark) {
    r.user == b.user && r.path == b.path && r.category == b.category && r.collection == b.collection
  }

  predicate KeyClash(a: Record, b: Record) {
    a.user == b.user && a.path == b.path && a.category == b.category && a.collection == b.collection
  }

  predicate IdClash(a: Record, b: Record) {
    a.id == b.id
  }

  /** No two records of the store clash. */
  predicate Distinct(s: Store, clash: (Record, Record) -> bool) {
    forall i, j :: 0 <= i < j < |s| ==> !clash(s[i], s[j])
  }

  /** The store's intended key: (user, path, collection, category) is unique. */
  predicate UniqueKeys(s: Store) {
    Distinct(s, KeyClash)
  }

  predicate UniqueIds(s: Store) {
    Distinct(s, IdClash)
  }

  /** `_id.toHexString() === id && user === user`. */
  predicate OwnedBy(r: Record, id: string, user: string) {
    Hex(r.id) == id && r.user == user
  }

  function Owned(id: string, user: string): Record -> bool {
    (r: Record) => OwnedBy(r, id, user)
  }

  /** The primary key `_id` equals `id`. */
  function HasId(id: Uuid): Record -> bool {
    (r: Record) => r.id == id
  }

  function HasKey(b: Bookmark): Record -> bool {
    (r: Record) => SameKey(r, b)
  }

  /** `path === path && user === user`. */
  function AtPath(path: string, user: string): Record -> bool {
    (r: Record) => r.path == path && r.user == user
  }

  function NotAtPath(path: string, user: string): Record -> bool {
    (r: Record) => !(r.path == path && r.user == user)
  }

  /** `collection === collection && user === user`. */
  function InCollection(collection: string, user: string): Record -> bool {
    (r: Record) => r.collection == collection && r.user == user
  }

  // ---------------------------------------------------------------------------
  // Operations
  // ---------------------------------------------------------------------------

  /** `create`: refused when some record has the payload's key; otherwise one
      record with the generated id `nextId` is appended and returned converted.
      `_id` is the primary key, so `realm.create` throws when `nextId` is taken. */
  function Create(s: Store, b: Bookmark, nextId: Uuid): (r: Result<(Store, View), StoreError>)
    ensures r.Err? && r.error == AlreadyExists <==> exists i :: 0 <= i < |s| && SameKey(s[i], b)
    ensures r.Err? <==> (exists i :: 0 <= i < |s| && SameKey(s[i], b)) || (exists i :: 0 <= i < |s| && s[i].id == nextId)
    ensures r.Err? ==> r.error == AlreadyExists || r.error == DuplicateId
    ensures r.Ok? ==> r.value.0 == s + [Record(nextId, b.path, b.kind, b.user, b.collection, b.category)]
    ensures r.Ok? ==> r.value.1 == Convert(r.value.0[|s|])
    ensures r.Ok? ==> ParseHex(r.value.1.id) == Some(nextId)
  {
    if FindFirst(s, HasKey(b)) < |s| then Err(AlreadyExists)
    else if FindFirst(s, HasId(nextId)) < |s| then Err(DuplicateId)
    else
      var record := Record(nextId, b.path, b.kind, b.user, b.collection, b.category);
      Ok((s + [record], Convert(record)))
  }

  /** A payload field counts only when truthy: present and, for text, non-empty. */
  predicate Truthy(o: Option<string>) {
    o.Some? && o.value != ""
  }

  /** The assignments of the `update` write block, each guarded by the
      truthiness of the payload field. */
  function Patched(r: Record, p: Patch): (q: Record)
    ensures q.id == r.id
    ensures q.kind == (if p.kind.Some? then p.kind.value else r.kind)
    ensures Truthy(p.path) ==> q.path == p.path.value
    ensures !Truthy(p.path) ==> q.path == r.path
    ensures Truthy(p.collection) ==> q.collection == p.collection.value
    ensures !Truthy(p.collection) ==> q.collection == r.collection
    ensures Truthy(p.category) ==> q.category == p.category.value
    ensures !Truthy(p.category) ==> q.category == r.category
    ensures r.user == p.user ==> q.user == r.user
  {
    var kind := if p.kind.Some? then p.kind.value else r.kind;
    var path := if Truthy(p.path) then p.path.value else r.path;
    var user := if p.user != "" then p.user else r.user;
    var collection := if Truthy(p.collection) then p.collection.value else r.collection;
    var category := if Truthy(p.category) then p.category.value else r.category;
    Record(r.id, path, kind, user, collection, category)
  }

  /** `update`: the first record with the given id and user is patched in
      place and returned; without one, "Not found" and nothing changes. */
  function Update(s: Store, p: Patch): (r: Result<(Store, Record), StoreError>)
    ensures r.Err? <==> forall j :: 0 <= j < |s| ==> !OwnedBy(s[j], p.id, p.user)
    ensures r.Err? ==> r.error == NotFound
    ensures r.Ok? ==> |r.value.0| == |s|
    ensures r.Ok? ==> exists i :: (0 <= i < |s| && OwnedBy(s[i], p.id, p.user)
      && (forall j :: 0 <= j < i ==> !OwnedBy(s[j], p.id, p.user))
      && r.value.1 == Patched(s[i], p) && r.value.0 == s[i := r.value.1])
  {
    var i := FindFirst(s, Owned(p.id, p.user));
    if i == |s| then Err(NotFound)
    else
      var q := Patched(s[i], p);
      Ok((s[i := q], q))
  }

  /** `remove`: deletes the first record with the given id and user; without
      one, "Not found". */
  function Remove(s: Store, id: string, user: string): (r: Result<Store, StoreError>)
    ensures r.Err? <==> forall j :: 0 <= j < |s| ==> !OwnedBy(s[j], id, user)
    ensures r.Err? ==> r.error == NotFound
    ensures r.Ok? ==> |r.value| == |s| - 1
    ensures r.Ok? ==> exists i :: (0 <= i < |s| && OwnedBy(s[i], id, user)
      && (forall j :: 0 <= j < i ==> !OwnedBy(s[j], id, user))
      && r.value == s[..i] + s[i + 1..])
  {
    var i := FindFirst(s, Owned(id, user));
    if i == |s| then Err(NotFound)
    else Ok(s[..i] + s[i + 1..])
  }

  /** `getMarkers`: the records of one user at one path, in store order, converted. */
  function GetMarkers(s: Store, path: string, user: string): (r: seq<View>)
    ensures forall v :: v in r ==> v.path == path && v.user == user
    ensures forall x :: x in s && x.path == path && x.user == user ==> Convert(x) in r
    ensures forall v :: v in r ==> exists x :: x in s && x.path == path && x.user == user && v == Convert(x)
    ensures |r| == |Select(s, AtPath(path, user))|
  {
    ViewsMembers(Select(s, AtPath(path, user)));
    Views(Select(s, AtPath(path, user)))
  }

  /** `getCollection`: the records of one user in one collection, in store
      order, converted. */
  function GetCollection(s: Store, collection: string, user: string): (r: seq<View>)
    ensures forall v :: v in r ==> v.collection == collection && v.user == user
    ensures forall x :: x in s && x.collection == collection && x.user == user ==> Convert(x) in r
    ensures forall v :: v in r ==> exists x :: x in s && x.collection == collection && x.user == user && v == Convert(x)
    ensures |r| == |Select(s, InCollection(collection, user))|
  {
    ViewsMembers(Select(s, InCollection(collection, user)));
    Views(Select(s, InCollection(collection, user)))
  }

  /** `removePath`: every record of the user at the path goes, in one write;
      nothing matching is not an error. */
  function RemovePath(s: Store, path: string, user: string): (r: Store)
    ensures forall x :: x in r ==> !(x.path == path && x.user == user)
    ensures forall x :: x in s && !(x.path == path && x.user == user) ==> x in r
    ensures forall x :: x in r ==> x in s
  {
    Select(s, NotAtPath(path, user))
  }

  /** `renamePath`: every record of the user at `source` now points at
      `target`; nothing else about any record changes. */
  function RenamePath(s: Store, source: string, target: string, user: string): (r: Store)
    ensures |r| == |s|
    ensures forall i :: 0 <= i < |s| ==> r[i].(path := s[i].path) == s[i]
    ensures forall i :: 0 <= i < |s| && s[i].path == source && s[i].user == user ==> r[i].path == target
    ensures forall i :: 0 <= i < |s| && !(s[i].path == source && s[i].user == user) ==> r[i] == s[i]
  {
    if |s| == 0 then []
    else
      var head := if s[0].path == source && s[0].user == user then s[0].(path := target) else s[0];
      [head] + RenamePath(s[1..], source, target, user)
  }
}

=== FILE: file_service.dfy ===
/** The file service: every operation resolves the user's path(s) against the
    sandbox root, runs the same three checks (the path is non-empty, exists,
    passes `hasAccess`) in its own particular combination, and then either fails
    or changes the tree. Streams are not modelled: `Read` and `Scp` return the
    path that would be streamed from or to. Failures inside fs-extra or Node
    are the single error `Io`; an error carries no tree, so what a failing
    call may already have changed is not described. */
module FileService {
  import opened Results
  import opened Paths
  import opened Trees

  datatype FsError =
    | NoPermission     // "No permission", "No permission on location: ..."
    | AlreadyExists    // "File already exists", "Target file already exists"
    | NotADirectory    // "Target path should be a directory"
    | Io               // an error raised inside fs-extra or Node

  /** What `dir` and `stat` report about one node, without the metadata. */
  datatype Entry = Entry(name: Segment, isFile: bool, isDirectory: bool)

  function EntryOf(t: Tree, p: Path): Entry
    requires p in t
  {
    Entry(Basename(p), t[p].File?, t[p].Directory?)
  }

  /** `path ? toAbsPath(path) : BASE_PATH`, the target of `read`, `dir` and `stat`. */
  function OpenTarget(base: Path, path: string): (abs: Path)
    requires IsBase(base)
    ensures IsNormal(abs)
    ensures path == "" ==> abs == base
  {
    if path == "" then base else ToAbsPath(base, path).value
  }

  /** The shared guard `absPath && pathExists && hasAccess(absPath)`, stated
      through the prefix characterisation of `hasAccess`. */
  predicate Reachable(t: Tree, base: Path, abs: Path) {
    abs in t && base <= abs
  }

  /** `read`: the path whose content is streamed. A missing path and an escaping
      path fail alike. */
  function Read(t: Tree, base: Path, path: string): (r: Result<Path, FsError>)
    requires IsBase(base)
    ensures r.Ok? <==> Reachable(t, base, OpenTarget(base, path))
    ensures r.Ok? ==> r.value == OpenTarget(base, path)
    ensures r.Err? ==> r.error == NoPermission
  {
    var abs := OpenTarget(base, path);
    HasAccessIffWithin(base, abs);
    if abs in t && HasAccess(base, abs) then Ok(abs) else Err(NoPermission)
  }

  /** The direct children of the directory `d`. */
  function Children(t: Tree, d: Path): (r: set<Entry>)
    ensures forall e :: e in r ==> d + [e.name] in t && e == EntryOf(t, d + [e.name])
    ensures forall name :: d + [name] in t ==> EntryOf(t, d + [name]) in r
  {
    var r := set p | p in t && |p| == |d| + 1 && d <= p :: EntryOf(t, p);
    assert forall p :: |p| == |d| + 1 && d <= p ==> p == d + [Basename(p)];
    assert forall name :: Basename(d + [name]) == name;
    r
  }

  /** `dir`: one entry per direct child; `readdir` on a file fails in Node. */
  function Dir(t: Tree, base: Path, path: string): (r: Result<set<Entry>, FsError>)
    requires IsBase(base)
    ensures var abs := OpenTarget(base, path);
      && (r.Ok? <==> Reachable(t, base, abs) && t[abs].Directory?)
      && (r.Err? ==> (r.error == NoPermission <==> !Reachable(t, base, abs)))
      && (r.Err? ==> r.error in {NoPermission, Io})
      && (r.Ok? ==> forall name :: abs + [name] in t ==> EntryOf(t, abs + [name]) in r.value)
      && (r.Ok? ==> forall e :: e in r.value ==> abs + [e.name] in t && e == EntryOf(t, abs + [e.name]))
  {
    var abs := OpenTarget(base, path);
    HasAccessIffWithin(base, abs);
    if !(abs in t && HasAccess(base, abs)) then Err(NoPermission)
    else if t[abs].File? then Err(Io)
    else Ok(Children(t, abs))
  }

  /** `stat`: the node's kind and name, `path.basename` of the resolved path. */
  function Stat(t: Tree, base: Path, path: string): (r: Result<Entry, FsError>)
    requires IsBase(base)
    ensures var abs := OpenTarget(base, path);
      && (r.Ok? <==> Reachable(t, base, abs))
      && (r.Ok? ==> r.value.isFile == t[abs].File? && r.value.isDirectory == !r.value.isFile)
      && (r.Ok? ==> r.value.name == Basename(abs))
      && (r.Ok? && path == "" ==> r.value.name == Basename(base))
    ensures r.Err? ==> r.error == NoPermission
  {
    var abs := OpenTarget(base, path);
    HasAccessIffWithin(base, abs);
    if abs in t && HasAccess(base, abs) then Ok(EntryOf(t, abs)) else Err(NoPermission)
  }

  /** `touch`: access is checked on the parent only, then the target must not
      exist; fs-extra's `createFile` creates missing parent directories and fails
      if a file stands in their way. */
  function Touch(t: Tree, base: Path, path: string): (r: Result<Tree, FsError>)
    requires IsBase(base)
    ensures path == "" ==> r == Err(NoPermission)
    ensures path != "" ==> var abs := ToAbsPath(base, path).value;
      && (r.Err? && r.error == NoPermission <==> !(base <= Parent(abs)))
      && (r.Err? ==> r.error in {NoPermission, AlreadyExists, Io})
      && (r.Ok? <==> base <= Parent(abs) && abs !in t && !FileOnWay(t, Parent(abs)))
      && (r.Err? && r.error == AlreadyExists <==> base <= Parent(abs) && abs in t)
      && (r.Ok? ==> base < abs && abs in r.value && r.value[abs] == File(""))
      && (r.Ok? ==> forall p :: p in t ==> p in r.value && r.value[p] == t[p])
      && (r.Ok? ==> forall p :: p in r.value && p !in t ==> p <= abs)
  {
    match ToAbsPath(base, path)
    case None => Err(NoPermission)
    case Some(abs) =>
      var parent := Parent(abs);
      HasAccessIffWithin(base, parent);
      if !HasAccess(base, parent) then Err(NoPermission)
      else if abs in t then Err(AlreadyExists)
      else CreateFile(t, abs)
  }

  /** fs-extra's `createFile` on a missing path: the missing parent directories
      are made, which fails when a file stands in their way, then an empty file. */
  function CreateFile(t: Tree, q: Path): (r: Result<Tree, FsError>)
    requires |q| > 0 && q !in t
    ensures r.Ok? <==> !FileOnWay(t, Parent(q))
    ensures r.Err? ==> r.error == Io
    ensures r.Ok? ==> q in r.value && r.value[q] == File("")
    ensures r.Ok? ==> forall p :: p in t ==> p in r.value && r.value[p] == t[p]
    ensures r.Ok? ==> forall p :: p in r.value && p !in t ==> p <= q
    ensures r.Ok? ==> forall p :: p in r.value && p !in t && p != q ==> r.value[p] == Directory
  {
    if FileOnWay(t, Parent(q)) then Err(Io)
    else
      assert Parent(q) + [q[|q| - 1]] == q;
      Ok(EnsureDirs(t, Parent(q))[q := File("")])
  }

  /** `mkdir`: the same parent-only access check, then Node's `fs.mkdir`, which
      fails on an existing path and on a missing or non-directory parent. */
  function Mkdir(t: Tree, base: Path, path: string): (r: Result<Tree, FsError>)
    requires IsBase(base)
    ensures path == "" ==> r == Err(NoPermission)
    ensures path != "" ==> var abs := ToAbsPath(base, path).value;
      && (r.Err? && r.error == NoPermission <==> !(base <= Parent(abs)))
      && (r.Ok? <==> base <= Parent(abs) && abs !in t && Parent(abs) in t && t[Parent(abs)].Directory?)
      && (r.Ok? ==> base < abs && r.value.Keys == t.Keys + {abs} && r.value[abs] == Directory)
      && (r.Ok? ==> forall p :: p in t ==> r.value[p] == t[p])
  {
    match ToAbsPath(base, path)
    case None => Err(NoPermission)
    case Some(abs) =>
      var parent := Parent(abs);
      HasAccessIffWithin(base, parent);
      if !HasAccess(base, parent) then Err(NoPermission)
      else if abs in t || parent !in t || t[parent].File? then Err(Io)
      else
        assert |abs| > 0 && parent + [abs[|abs| - 1]] == abs;
        Ok(t[abs := Directory])
  }

  /** `write`: the path must be non-empty, exist and pass `hasAccess`; writing
      to a directory fails in Node. */
  function Write(t: Tree, base: Path, path: string, data: string): (r: Result<Tree, FsError>)
    requires IsBase(base)
    ensures path == "" ==> r == Err(NoPermission)
    ensures path != "" ==> var abs := ToAbsPath(base, path).value;
      && (r.Err? && r.error == NoPermission <==> !Reachable(t, base, abs))
      && (r.Ok? <==> Reachable(t, base, abs) && t[abs].File?)
      && (r.Ok? ==> r.value.Keys == t.Keys && r.value[abs] == File(data))
      && (r.Ok? ==> forall p :: p in t && p != abs ==> r.value[p] == t[p])
  {
    match ToAbsPath(base, path)
    case None => Err(NoPermission)
    case Some(abs) =>
      HasAccessIffWithin(base, abs);
      if !(abs in t && HasAccess(base, abs)) then Err(NoPermission)
      else if t[abs].Directory? then Err(Io)
      else Ok(t[abs := File(data)])
  }

  /** `rm`: the path must be non-empty, exist and pass `hasAccess`; `fs.remove`
      then deletes the whole subtree at it. */
  function Rm(t: Tree, base: Path, path: string): (r: Result<Tree, FsError>)
    requires IsBase(base)
    ensures path == "" ==> r == Err(NoPermission)
    ensures r.Err? ==> r.error == NoPermission
    ensures path != "" ==> var abs := ToAbsPath(base, path).value;
      && (r.Ok? <==> Reachable(t, base, abs))
      && (r.Ok? ==> forall p :: p in r.value <==> p in t && !(abs <= p))
      && (r.Ok? ==> forall p :: p in r.value ==> r.value[p] == t[p])
  {
    match ToAbsPath(base, path)
    case None => Err(NoPermission)
    case Some(abs) =>
      HasAccessIffWithin(base, abs);
      if !(abs in t && HasAccess(base, abs)) then Err(NoPermission)
      else Ok(Prune(t, abs))
  }

  // ---------------------------------------------------------------------------
  // Copy
  // ---------------------------------------------------------------------------

  /** A node of the subtree at `src` would land on an existing node of the
      other kind below `dst`, which Node's `fs.cp` refuses. */
  predicate CopyClashes(t: Tree, src: Path, dst: Path) {
    exists q | q in t && src <= q ::
      Rebase(q, src, dst) in t && t[Rebase(q, src, dst)].Directory? != t[q].Directory?
  }

  /** Node's recursive `fs.cp(src, dst)` of a directory: the contents of `src`
      are merged onto `dst`, overwriting files. Its error goes to a callback that
      only logs it, so a refused copy is not reported. A copy into itself is
      refused before anything is written. On a kind clash below the top level
      the model writes nothing, which is Node's outcome when the clash is the
      first item it reaches. */
  function CopyDir(t: Tree, src: Path, dst: Path): (r: Tree)
    ensures t.Keys <= r.Keys
    ensures ChangesWithin(t, r, dst)
    ensures forall p :: p in t && !(src <= p) && !(dst <= p) ==> r[p] == t[p]
    ensures !(src <= dst) && !CopyClashes(t, src, dst) ==>
      forall q :: q in t && src <= q ==> Rebase(q, src, dst) in r && r[Rebase(q, src, dst)] == t[q]
    ensures forall p :: p in r ==> p in t || (dst <= p && src + p[|dst|..] in t)
    ensures forall p :: p in r ==>
      (p in t && r[p] == t[p]) || (dst <= p && src + p[|dst|..] in t && r[p] == t[src + p[|dst|..]])
    ensures src <= dst ==> r == t
  {
    if src <= dst || CopyClashes(t, src, dst) then t
    else t + Graft(t, src, dst)
  }

  /** `cp`: source and target must be non-empty, exist and pass `hasAccess`, and
      the target must be a directory. A directory source is merged onto the
      target itself; a file source goes to `target/basename(source)`, which must
      not exist yet. Nothing is ever removed. */
  function Cp(t: Tree, base: Path, source: string, target: string): (r: Result<Tree, FsError>)
    requires IsBase(base)
    ensures source == "" || target == "" ==> r == Err(NoPermission)
    ensures source != "" && target != "" ==>
      var src := ToAbsPath(base, source).value;
      var dst := ToAbsPath(base, target).value;
      && (r.Err? && r.error == NoPermission <==> !(Reachable(t, base, src) && Reachable(t, base, dst)))
      && (r.Ok? ==> Reachable(t, base, src) && Reachable(t, base, dst) && t[dst].Directory?)
      && (r.Ok? ==> t.Keys <= r.value.Keys && src in r.value)
      && (r.Ok? && t[src].File? ==>
            r.value.Keys == t.Keys + {dst + [Basename(src)]}
            && dst + [Basename(src)] !in t
            && r.value[dst + [Basename(src)]] == t[src]
            && forall p :: p in t ==> r.value[p] == t[p])
      && (r.Ok? && t[src].Directory? && !(src <= dst) && !CopyClashes(t, src, dst) ==>
            forall q :: q in t && src <= q ==> Rebase(q, src, dst) in r.value && r.value[Rebase(q, src, dst)] == t[q])
      && (r.Ok? && t[src].Directory? && src <= dst ==> r.value == t)
      && (r.Ok? && t[src].Directory? ==> forall p :: p in r.value ==> p in t || (dst <= p && src + p[|dst|..] in t))
      && (r.Ok? && t[src].Directory? ==> forall p :: p in r.value ==>
            (p in t && r.value[p] == t[p]) || (dst <= p && src + p[|dst|..] in t && r.value[p] == t[src + p[|dst|..]]))
      && (r.Ok? ==> forall p :: p in t && !(dst <= p) ==> r.value[p] == t[p])
      && (Reachable(t, base, src) && Reachable(t, base, dst) && t[dst].Directory? ==>
            (r.Err? <==> t[src].File? && dst + [Basename(src)] in t))
      && (Reachable(t, base, src) && Reachable(t, base, dst) && !t[dst].Directory? ==> r == Err(NotADirectory))
      && ((Reachable(t, base, src) && Reachable(t, base, dst) && t[dst].Directory? && t[src].File?
            && dst + [Basename(src)] in t) ==> r == Err(AlreadyExists))
  {
    var absSource := ToAbsPath(base, source);
    var absTarget := ToAbsPath(base, target);
    if absSource.None? || absTarget.None? then Err(NoPermission)
    else
      var src := absSource.value;
      var dst := absTarget.value;
      HasAccessIffWithin(base, src);
      HasAccessIffWithin(base, dst);
      if !(src in t && dst in t && HasAccess(base, src) && HasAccess(base, dst)) then Err(NoPermission)
      else if !t[dst].Directory? then Err(NotADirectory)
      else if t[src].Directory? then Ok(CopyDir(t, src, dst))
      else CopyFile(t, src, dst)
  }

  /** The file branch of `cp`: `fs.copyFile` to `path.resolve(dst, basename(src))`,
      which must not exist yet. */
  function CopyFile(t: Tree, src: Path, dst: Path): (r: Result<Tree, FsError>)
    requires src in t && IsNormal(src) && |src| > 0 && IsNormal(dst)
    ensures r.Err? <==> dst + [Basename(src)] in t
    ensures r.Err? ==> r.error == AlreadyExists
    ensures r.Ok? ==> r.value.Keys == t.Keys + {dst + [Basename(src)]}
    ensures r.Ok? ==> r.value[dst + [Basename(src)]] == t[src]
    ensures r.Ok? ==> forall p :: p in t ==> r.value[p] == t[p]
  {
    assert IsNormalSegment(src[|src| - 1]);
    ResolveChild(dst, Basename(src));
    var dest := Resolve(dst, Basename(src));
    if dest in t then Err(AlreadyExists)
    else Ok(t[dest := t[src]])
  }

  // ---------------------------------------------------------------------------
  // Move
  // ---------------------------------------------------------------------------

  /** The subtree at `src` moved to `dst`: missing parents of `dst` are created,
      whatever was at `dst` is removed (`overwrite: true`), then the subtree is
      renamed. */
  function Relocate(t: Tree, src: Path, dst: Path): (r: Tree)
    ensures forall p :: !(src <= p) && !(dst <= p) && p in t ==> p in r && r[p] == t[p]
    ensures forall p :: p in r && p !in t ==> p <= dst || dst <= p
    ensures forall p :: p in r && src <= p ==> dst <= p
    ensures forall q :: q in t && src <= q ==> Rebase(q, src, dst) in r && r[Rebase(q, src, dst)] == t[q]
    ensures forall p :: p in r && dst <= p ==> src + p[|dst|..] in t
    ensures forall p :: p in r && p !in t && !(dst <= p) ==> r[p] == Directory
  {
    RelocateFacts(t, src, dst);
    Prune(Prune(EnsureDirs(t, Parent(dst)), dst), src) + Graft(t, src, dst)
  }

  /** The clauses of `Relocate`'s contract, proved one by one about its body. */
  lemma RelocateFacts(t: Tree, src: Path, dst: Path)
    ensures var r := Prune(Prune(EnsureDirs(t, Parent(dst)), dst), src) + Graft(t, src, dst);
      && (forall p :: !(src <= p) && !(dst <= p) && p in t ==> p in r && r[p] == t[p])
      && (forall p :: p in r && p !in t ==> p <= dst || dst <= p)
      && (forall p :: p in r && src <= p ==> dst <= p)
      && (forall q :: q in t && src <= q ==> Rebase(q, src, dst) in r && r[Rebase(q, src, dst)] == t[q])
      && (forall p :: p in r && dst <= p ==> src + p[|dst|..] in t)
      && (forall p :: p in r && p !in t && !(dst <= p) ==> r[p] == Directory)
  {
    var grown := EnsureDirs(t, Parent(dst));
    var kept := Prune(Prune(grown, dst), src);
    var moved := Graft(t, src, dst);
    var r := kept + moved;
    assert forall p :: p in kept ==> !(dst <= p) && !(src <= p) && p in grown && kept[p] == grown[p];
    assert forall p :: p in moved ==> dst <= p;
    forall p | !(src <= p) && !(dst <= p) && p in t
      ensures p in r && r[p] == t[p]
    {
      assert p in kept && p !in moved;
    }
    forall p | p in r && p !in t
      ensures p <= dst || dst <= p
    {
      if p in kept {
        assert p in Prefixes(Parent(dst));
      }
    }
    forall p | p in r && dst <= p
      ensures src + p[|dst|..] in t
    {
      assert p in moved;
    }
    forall p | p in r && p !in t && !(dst <= p)
      ensures r[p] == Directory
    {
      assert p in kept && p !in moved;
    }
  }

  /** fs-extra's `move(src, dst, { overwrite: true })`, preceded for a directory
      by `ensureDir(dst)`. It refuses a move onto itself, into its own subtree or
      onto one of its ancestors, a node of the other kind at `dst`, and a file in
      the way of `dst`'s parents. */
  function MoveEntry(t: Tree, src: Path, dst: Path): (r: Result<Tree, FsError>)
    requires src in t
    ensures r.Err? ==> r.error == Io
    ensures r.Ok? <==> (!(src <= dst) && !(dst <= src)
      && !(dst in t && t[dst].Directory? != t[src].Directory?) && !FileOnWay(t, Parent(dst)))
    ensures r.Ok? ==> !(src <= dst) && !(dst <= src)
    ensures r.Ok? ==> src !in r.value && dst in r.value && r.value[dst] == t[src]
    ensures r.Ok? ==> forall q :: q in t && src <= q ==>
      Rebase(q, src, dst) in r.value && r.value[Rebase(q, src, dst)] == t[q]
    ensures r.Ok? ==> forall p :: p in r.value && dst <= p ==> src + p[|dst|..] in t
    ensures r.Ok? ==> forall p :: p in r.value && src <= p ==> dst <= p
    ensures r.Ok? ==> forall p :: !(src <= p) && !(dst <= p) && p in t ==> p in r.value && r.value[p] == t[p]
    ensures r.Ok? ==> forall p :: p in r.value && p !in t ==> p <= dst || dst <= p
    ensures r.Ok? ==> forall p :: p in r.value && p !in t && !(dst <= p) ==> r.value[p] == Directory
  {
    if src <= dst || dst <= src then Err(Io)
    else if dst in t && t[dst].Directory? != t[src].Directory? then Err(Io)
    else if FileOnWay(t, Parent(dst)) then Err(Io)
    else
      assert Rebase(src, src, dst) == dst;
      Ok(Relocate(t, src, dst))
  }

  /** Where `mv` puts the source: into the target directory under the source's
      own name, unless in rename mode or when the target is a file. */
  function MoveDestination(t: Tree, src: Path, dst: Path, rename: bool): (d: Path)
    requires IsNormal(dst) && (rename || dst in t)
    ensures rename || t[dst].File? ==> d == dst
    ensures !rename && t[dst].Directory? && IsNormalSegment(Basename(src)) ==> d == dst + [Basename(src)]
  {
    if !rename && t[dst].Directory? then
      if IsNormalSegment(Basename(src)) then ResolveChild(dst, Basename(src)); Resolve(dst, Basename(src))
      else Resolve(dst, Basename(src))
    else dst
  }

  /** `mv` as written: the source must be non-empty, exist and pass `hasAccess`;
      outside rename mode the target must too. In rename mode the target must not
      exist, and its access is never checked. */
  function Mv(t: Tree, base: Path, source: string, target: string, rename: bool): (r: Result<Tree, FsError>)
    requires IsBase(base)
    ensures source == "" || target == "" ==> r == Err(NoPermission)
    ensures source != "" && target != "" ==>
      var src := ToAbsPath(base, source).value;
      var dst := ToAbsPath(base, target).value;
      && (!rename ==> (r.Err? && r.error == NoPermission <==> !(Reachable(t, base, src) && Reachable(t, base, dst))))
      && (rename ==> (r.Err? && r.error == NoPermission <==> !Reachable(t, base, src)))
      && (rename && Reachable(t, base, src) ==> (r.Err? && r.error == AlreadyExists <==> dst in t))
      && (r.Ok? ==> Reachable(t, base, src) && src !in r.value)
      && (r.Ok? && !rename ==> Reachable(t, base, dst))
      && (Reachable(t, base, src) && (rename ==> dst !in t) && (!rename ==> Reachable(t, base, dst)) ==>
            var d := MoveDestination(t, src, dst, rename);
            && (r.Ok? <==> (!(src <= d) && !(d <= src)
                  && !(d in t && t[d].Directory? != t[src].Directory?) && !FileOnWay(t, Parent(d))))
            && (r.Err? ==> r.error == Io))
      && (r.Ok? && !rename && t[dst].Directory? ==>
            dst + [Basename(src)] in r.value && r.value[dst + [Basename(src)]] == t[src])
      && (r.Ok? && (rename || t[dst].File?) ==> dst in r.value && r.value[dst] == t[src])
      && (r.Ok? ==> var d := MoveDestination(t, src, dst, rename);
            && (forall q :: q in t && src <= q ==>
                  Rebase(q, src, d) in r.value && r.value[Rebase(q, src, d)] == t[q])
            && (forall p :: p in r.value && d <= p ==> src + p[|d|..] in t)
            && (forall p :: !(src <= p) && !(d <= p) && p in t ==> p in r.value && r.value[p] == t[p])
            && (forall p :: p in r.value && p !in t ==> p <= d || d <= p)
            && (forall p :: p in r.value && p !in t && !(d <= p) ==> r.value[p] == Directory))
  {
    var absSource := ToAbsPath(base, source);
    var absTarget := ToAbsPath(base, target);
    if absSource.None? || absTarget.None? then Err(NoPermission)
    else
      var src := absSource.value;
      var dst := absTarget.value;
      HasAccessIffWithin(base, src);
      HasAccessIffWithin(base, dst);
      if !(src in t && (rename || dst in t) && HasAccess(base, src) && (rename || HasAccess(base, dst))) then
        Err(NoPermission)
      else if rename && dst in t then Err(AlreadyExists)
      else
        assert IsNormalSegment(src[|src| - 1]);
        ResolveChild(dst, Basename(src));
        MoveEntry(t, src, MoveDestination(t, src, dst, rename))
  }

  /** `mv` with the target's access checked in rename mode too: the guard the
      other operations keep, and the one the confinement theorem relies on. */
  function MvChecked(t: Tree, base: Path, source: string, target: string, rename: bool): (r: Result<Tree, FsError>)
    requires IsBase(base)
    ensures source != "" && target != "" && rename ==>
      var dst := ToAbsPath(base, target).value;
      !(base <= dst) ==> r == Err(NoPermission)
    ensures r.Ok? ==> r == Mv(t, base, source, target, rename)
    ensures !(source != "" && target != "" && rename && !(base <= ToAbsPath(base, target).value)) ==>
      r == Mv(t, base, source, target, rename)
  {
    if source != "" && target != "" && rename then
      var dst := ToAbsPath(base, target).value;
      HasAccessIffWithin(base, dst);
      if !HasAccess(base, dst) then Err(NoPermission) else Mv(t, base, source, target, rename)
    else Mv(t, base, source, target, rename)
  }

  // ---------------------------------------------------------------------------
  // Upload
  // ---------------------------------------------------------------------------

  /** `scp` as written: only the destination directory is checked; the file is
      then streamed to `path.resolve(absPath, originalFilename)`, which is not. */
  function Scp(t: Tree, base: Path, path: string, fileName: string): (r: Result<Path, FsError>)
    requires IsBase(base)
    ensures path == "" ==> r == Err(NoPermission)
    ensures r.Err? ==> r.error == NoPermission
    ensures path != "" ==> var abs := ToAbsPath(base, path).value;
      && (r.Ok? <==> Reachable(t, base, abs))
      && (r.Ok? ==> r.value == Resolve(abs, fileName))
  {
    match ToAbsPath(base, path)
    case None => Err(NoPermission)
    case Some(abs) =>
      HasAccessIffWithin(base, abs);
      if !(abs in t && HasAccess(base, abs)) then Err(NoPermission)
      else Ok(Resolve(abs, fileName))
  }

  /** `scp` with the resolved destination checked as well. */
  function ScpChecked(t: Tree, base: Path, path: string, fileName: string): (r: Result<Path, FsError>)
    requires IsBase(base)
    ensures r.Ok? ==> base <= r.value
    ensures r.Ok? ==> r == Scp(t, base, path, fileName)
    ensures Scp(t, base, path, fileName).Ok? && base <= Scp(t, base, path, fileName).value ==> r.Ok?
  {
    match Scp(t, base, path, fileName)
    case Err(e) => Err(e)
    case Ok(dest) =>
      HasAccessIffWithin(base, dest);
      if HasAccess(base, dest) then Ok(dest) else Err(NoPermission)
  }
}

=== FILE: file_service_proofs.dfy ===
/** Properties of the file service that relate several calls or hold over the
    whole tree: confinement to the sandbox, well-formedness, and the places
    where the code as written lets a path escape. */
module FileServiceProofs {
  import opened Results
  import opened Paths
  import opened Trees
  import opened FileService

  // ---------------------------------------------------------------------------
  // Helpers
  // ---------------------------------------------------------------------------

  /** Two prefixes of one path are ordered by length. */
  lemma PrefixesComparable(a: Path, b: Path, c: Path)
    requires a <= c && b <= c && |a| <= |b|
    ensures a <= b
  {
    assert a == c[..|a|] && b == c[..|b|];
    assert b[..|a|] == c[..|a|];
  }

  /** A prefix of an entry's path is itself an entry, in a well-formed tree. */
  lemma PrefixPresent(t: Tree, q: Path, p: Path)
    requires WellFormed(t) && q in t && p <= q
    ensures p in t
  {
    AncestorsAreDirs(t, q, |p|);
    assert q[..|p|] == p;
  }

  lemma ChangesWithinWidens(t: Tree, u: Tree, inner: Path, outer: Path)
    requires ChangesWithin(t, u, inner) && outer <= inner
    ensures ChangesWithin(t, u, outer)
  {
    forall p | !(outer <= p) ensures SameAt(t, u, p) {
      assert !(inner <= p);
    }
  }

  lemma NormalHasNoSeparator(segs: seq<Segment>)
    requires IsNormal(segs)
    ensures NoSeparator(segs)
  {
    forall k | 0 <= k < |segs| ensures '/' !in segs[k] {
      assert IsNormalSegment(segs[k]);
    }
  }

  /** A normal relative path names the same place below the root. */
  lemma ToAbsPathPlain(base: Path, segs: seq<Segment>)
    requires IsNormal(base) && IsNormal(segs) && |segs| > 0
    ensures Join(segs) != ""
    ensures ToAbsPath(base, Join(segs)) == Some(base + segs)
  {
    NormalHasNoSeparator(segs);
    JoinStartsWith(segs);
    assert IsNormalSegment(segs[0]);
    SplitDotJoin(segs);
    var all := Split("./" + Join(segs));
    assert ("./" + Join(segs))[0] == '.';
    assert Resolve(base, "./" + Join(segs)) == Walk(base, all);
    assert Walk(base, all) == Walk(base, segs);
    WalkNormal(base, segs);
  }

  /** "../name" names `name` next to the root. */
  lemma ToAbsPathSibling(base: Path, name: Segment)
    requires IsBase(base) && IsNormalSegment(name)
    ensures ToAbsPath(base, "../" + name) == Some(Parent(base) + [name])
  {
    var path := "./" + ("../" + name);
    var segs := [".", "..", name];
    assert Split(path) == segs by {
      SplitPlain(name);
      assert "../" + name == ".." + "/" + name;
      SplitCons("..", name);
      assert path == "." + "/" + ("../" + name);
      SplitCons(".", "../" + name);
    }
    assert Resolve(base, path) == Walk(base, segs) by {
      assert path[0] == '.';
    }
    assert Walk(base, segs) == Walk(base, segs[1..]) == Walk(Parent(base), segs[2..]);
    assert Walk(Parent(base), segs[2..]) == Walk(Parent(base) + [name], []);
  }

  // ---------------------------------------------------------------------------
  // The asymmetries of the guards
  // ---------------------------------------------------------------------------

  /** "." resolves to the root, whose parent is outside: `touch` and `mkdir`
      refuse it, while `read`, `dir`, `stat` and `rm` accept it. */
  lemma DotRefusedByCreators(t: Tree, base: Path)
    requires IsBase(base)
    ensures Touch(t, base, ".") == Err(NoPermission)
    ensures Mkdir(t, base, ".") == Err(NoPermission)
    ensures base in t ==> Read(t, base, ".").Ok? && Rm(t, base, ".").Ok?
  {
    ToAbsPathDot(base);
    assert !(base <= Parent(base));
  }

  /** The empty path is the root for `read`, `dir` and `stat`, and a failure for
      every mutation. */
  lemma EmptyPathAsymmetry(t: Tree, base: Path, data: string)
    requires IsBase(base) && base in t
    ensures Read(t, base, "") == Ok(base)
    ensures Stat(t, base, "").Ok?
    ensures t[base].Directory? ==> Dir(t, base, "").Ok?
    ensures Write(t, base, "", data) == Err(NoPermission)
    ensures Rm(t, base, "") == Err(NoPermission)
    ensures Touch(t, base, "") == Err(NoPermission)
    ensures Mkdir(t, base, "") == Err(NoPermission)
  {
  }

  /** `touch` twice on the same path: the second call finds the file. */
  lemma {:induction false} TouchTwice(t: Tree, base: Path, path: string)
    requires IsBase(base) && Touch(t, base, path).Ok?
    ensures Touch(Touch(t, base, path).value, base, path) == Err(AlreadyExists)
  {
  }

  /** `rm(".")` deletes the sandbox root itself and everything below it. */
  lemma RmDotRemovesRoot(t: Tree, base: Path)
    requires IsBase(base) && base in t
    ensures Rm(t, base, ".").Ok?
    ensures forall p :: p in Rm(t, base, ".").value ==> !(base <= p)
  {
    ToAbsPathDot(base);
  }

  // ---------------------------------------------------------------------------
  // Confinement: a successful operation changes nothing outside the sandbox
  // ---------------------------------------------------------------------------

  /** New entries that are prefixes of a path below the root are below the root
      themselves, when the root is in a well-formed tree. */
  lemma NewPrefixesInside(t: Tree, u: Tree, base: Path, anchor: Path, top: Path)
    requires WellFormed(t) && anchor in t && base <= anchor && base <= top
    requires forall p :: p in u && p !in t ==> p <= top
    requires forall p :: p in t ==> p in u && u[p] == t[p]
    ensures ChangesWithin(t, u, base)
  {
    forall p | !(base <= p) ensures SameAt(t, u, p) {
      if p in u && p !in t {
        PrefixesComparable(p, base, top);
        PrefixPresent(t, anchor, p);
      }
    }
  }

  lemma TouchConfined(t: Tree, base: Path, path: string)
    requires IsBase(base) && WellFormed(t) && base in t
    requires Touch(t, base, path).Ok?
    ensures ChangesWithin(t, Touch(t, base, path).value, base)
  {
    var abs := ToAbsPath(base, path).value;
    NewPrefixesInside(t, Touch(t, base, path).value, base, base, abs);
  }

  lemma MkdirConfined(t: Tree, base: Path, path: string)
    requires IsBase(base) && Mkdir(t, base, path).Ok?
    ensures ChangesWithin(t, Mkdir(t, base, path).value, base)
  {
    var abs := ToAbsPath(base, path).value;
    var u := Mkdir(t, base, path).value;
    forall p | !(base <= p) ensures SameAt(t, u, p) {
      assert p != abs;
    }
  }

  lemma WriteConfined(t: Tree, base: Path, path: string, data: string)
    requires IsBase(base) && Write(t, base, path, data).Ok?
    ensures ChangesWithin(t, Write(t, base, path, data).value, base)
  {
    var abs := ToAbsPath(base, path).value;
    var u := Write(t, base, path, data).value;
    forall p | !(base <= p) ensures SameAt(t, u, p) {
      assert p != abs;
    }
  }

  lemma RmConfined(t: Tree, base: Path, path: string)
    requires IsBase(base) && Rm(t, base, path).Ok?
    ensures ChangesWithin(t, Rm(t, base, path).value, base)
  {
    var abs := ToAbsPath(base, path).value;
    var u := Rm(t, base, path).value;
    forall p | !(base <= p) ensures SameAt(t, u, p) {
      assert !(abs <= p);
    }
  }

  lemma CpConfined(t: Tree, base: Path, source: string, target: string)
    requires IsBase(base) && Cp(t, base, source, target).Ok?
    ensures ChangesWithin(t, Cp(t, base, source, target).value, base)
  {
    var src := ToAbsPath(base, source).value;
    var dst := ToAbsPath(base, target).value;
    var u := Cp(t, base, source, target).value;
    if t[src].Directory? {
      assert u == CopyDir(t, src, dst);
      ChangesWithinWidens(t, u, dst, base);
    } else {
      forall p | !(base <= p) ensures SameAt(t, u, p) {
        assert p != dst + [Basename(src)];
      }
    }
  }

  /** The effect of a successful `MoveEntry` stays inside the sandbox when both
      ends do and the source is an entry of a well-formed tree. */
  lemma MoveEntryConfined(t: Tree, base: Path, src: Path, dst: Path)
    requires WellFormed(t) && src in t && base <= src && base <= dst
    requires MoveEntry(t, src, dst).Ok?
    ensures ChangesWithin(t, MoveEntry(t, src, dst).value, base)
  {
    var u := MoveEntry(t, src, dst).value;
    forall p | !(base <= p) ensures SameAt(t, u, p) {
      assert !(src <= p) by {
        if src <= p { PrefixesComparable(base, src, p); }
      }
      assert !(dst <= p) by {
        if dst <= p { PrefixesComparable(base, dst, p); }
      }
      if p in u && p !in t {
        assert p <= dst;
        PrefixesComparable(p, base, dst);
        PrefixPresent(t, src, p);
      }
    }
  }

  /** Outside rename mode a successful `mv` stays inside the sandbox. */
  lemma MvConfined(t: Tree, base: Path, source: string, target: string)
    requires IsBase(base) && WellFormed(t)
    requires Mv(t, base, source, target, false).Ok?
    ensures ChangesWithin(t, Mv(t, base, source, target, false).value, base)
  {
    var src := ToAbsPath(base, source).value;
    var dst := ToAbsPath(base, target).value;
    assert IsNormalSegment(src[|src| - 1]);
    ResolveChild(dst, Basename(src));
    var dest := MoveDestination(t, src, dst, false);
    assert base <= dest;
    assert Mv(t, base, source, target, false) == MoveEntry(t, src, dest);
    MoveEntryConfined(t, base, src, dest);
  }

  /** With the target checked in rename mode too, every successful move stays
      inside the sandbox. */
  lemma MvCheckedConfined(t: Tree, base: Path, source: string, target: string, rename: bool)
    requires IsBase(base) && WellFormed(t)
    requires MvChecked(t, base, source, target, rename).Ok?
    ensures ChangesWithin(t, MvChecked(t, base, source, target, rename).value, base)
  {
    if !rename {
      MvConfined(t, base, source, target);
    } else {
      var src := ToAbsPath(base, source).value;
      var dst := ToAbsPath(base, target).value;
      assert base <= dst;
      assert IsNormalSegment(src[|src| - 1]);
      ResolveChild(dst, Basename(src));
      assert MvChecked(t, base, source, target, rename) == MoveEntry(t, src, dst);
      MoveEntryConfined(t, base, src, dst);
    }
  }

  // ---------------------------------------------------------------------------
  // Where the code as written escapes
  // ---------------------------------------------------------------------------

  /** A small sandbox: the root "/", the root directory "/data" and one file in it. */
  function Sample(): Tree {
    map[[] := Directory, ["data"] := Directory, ["data", "a"] := File("x")]
  }

  lemma SamplePaths()
    ensures ToAbsPath(["data"], "a") == Some(["data", "a"])
    ensures ToAbsPath(["data"], "../b") == Some(["b"])
  {
    var base: Path := ["data"];
    assert IsBase(base) by { assert IsNormalSegment("data"); }
    var a: Path := ["a"];
    assert IsNormal(a);
    ToAbsPathPlain(base, a);
    assert Join(a) == "a";
    assert base + a == ["data", "a"];
    ToAbsPathSibling(base, "b");
    assert "../" + "b" == "../b";
    assert Parent(base) + ["b"] == ["b"];
  }

  lemma SampleMoveResolves()
    ensures Mv(Sample(), ["data"], "a", "../b", true) == MoveEntry(Sample(), ["data", "a"], ["b"])
  {
    var base: Path := ["data"];
    SamplePaths();
    assert ["data", "a"] in Sample();
    assert base <= ["data", "a"];
    HasAccessIffWithin(base, ["data", "a"]);
    assert ["b"] !in Sample();
  }

  lemma SampleMoveSucceeds()
    ensures MoveEntry(Sample(), ["data", "a"], ["b"]).Ok?
  {
    var t := Sample();
    var src: Path := ["data", "a"];
    var dst: Path := ["b"];
    assert "b" != "data" by { assert |"b"| != |"data"|; }
    assert src[..1] == ["data"] && dst != ["data"];
    assert !(src <= dst) && !(dst <= src);
    assert dst !in t;
    assert Prefixes(Parent(dst)) == {[]};
    assert !FileOnWay(t, Parent(dst));
  }

  /** The sample tree is well formed. */
  lemma SampleWellFormed()
    ensures WellFormed(Sample())
  {
    var t := Sample();
    forall p | p in t && |p| > 0 ensures Parent(p) in t && t[Parent(p)].Directory? {
      if p == ["data"] {
        assert Parent(p) == [];
      } else {
        assert p == ["data", "a"];
        assert Parent(p) == ["data"];
      }
    }
  }

  /** Rename-mode `mv` never checks the target: "a" renamed to "../b" lands at
      "/b", outside "/data"; with the check it is refused. */
  lemma MvRenameEscapes()
    ensures WellFormed(Sample())
    ensures Mv(Sample(), ["data"], "a", "../b", true).Ok?
    ensures ["b"] in Mv(Sample(), ["data"], "a", "../b", true).value
    ensures !ChangesWithin(Sample(), Mv(Sample(), ["data"], "a", "../b", true).value, ["data"])
  {
    SampleWellFormed();
    SampleMoveResolves();
    var m := MoveEntry(Sample(), ["data", "a"], ["b"]);
    SampleMoveLands();
    OutsideSample();
    EscapeNotWithin(Sample(), m.value);
  }

  lemma SampleMoveLands()
    ensures MoveEntry(Sample(), ["data", "a"], ["b"]).Ok?
    ensures ["b"] in MoveEntry(Sample(), ["data", "a"], ["b"]).value
  {
    SampleMoveSucceeds();
  }

  lemma OutsideSample()
    ensures ["b"] !in Sample()
  {
    var b: Path := ["b"];
    assert b != [] && b != ["data", "a"];
    assert "b" != "data" by { assert |"b"| != |"data"|; }
    assert b != ["data"] by { assert b[0] != "data"; }
  }

  /** A tree that gains "/b", which "/data" does not contain, changed outside "/data". */
  lemma EscapeNotWithin(t: Tree, u: Tree)
    requires ["b"] in u && ["b"] !in t
    ensures !ChangesWithin(t, u, ["data"])
  {
    assert "b" != "data" by { assert |"b"| != |"data"|; }
    assert ["data"][0] != ["b"][0];
    assert !SameAt(t, u, ["b"]);
  }

  /** The checked `mv` refuses the same rename. */
  lemma MvCheckedRefusesEscape()
    ensures ToAbsPath(["data"], "../b") == Some(["b"])
    ensures MvChecked(Sample(), ["data"], "a", "../b", true) == Err(NoPermission)
  {
    SamplePaths();
    assert IsNormalSegment("data");
    assert "b" != "data" by { assert |"b"| != |"data"|; }
    assert ["data"][0] != ["b"][0];
  }

  /** `scp` streams to `resolve(absPath, originalFilename)` unchecked: an
      absolute file name such as "/x" lands at "/x"; with the check it is refused. */
  lemma ScpEscapes()
    ensures Scp(Sample(), ["data"], ".", "/x") == Ok(["x"])
    ensures !(["data"] <= ["x"])
  {
    ScpSample();
    assert "x" != "data" by { assert |"x"| != |"data"|; }
    assert ["data"][0] != ["x"][0];
  }

  /** The sandbox root passes the guard, and "/x" resolves against it to "/x". */
  lemma ScpSample()
    ensures ToAbsPath(["data"], ".") == Some(["data"])
    ensures Reachable(Sample(), ["data"], ["data"])
    ensures Resolve(["data"], "/x") == ["x"]
    ensures Scp(Sample(), ["data"], ".", "/x") == Ok(["x"])
  {
    var base: Path := ["data"];
    assert IsBase(base) by { assert IsNormalSegment("data"); }
    ToAbsPathDot(base);
    assert IsNormalSegment("x");
    ResolveAbsolute(base, "x");
    assert base in Sample();
  }

  /** The checked upload refuses the same file name. */
  lemma ScpCheckedRefusesEscape()
    ensures ScpChecked(Sample(), ["data"], ".", "/x") == Err(NoPermission)
  {
    ScpEscapes();
  }

  // ---------------------------------------------------------------------------
  // Well-formedness is preserved
  // ---------------------------------------------------------------------------

  lemma TouchWellFormed(t: Tree, base: Path, path: string)
    requires IsBase(base) && WellFormed(t) && Touch(t, base, path).Ok?
    ensures WellFormed(Touch(t, base, path).value)
  {
    var abs := ToAbsPath(base, path).value;
    var parent := Parent(abs);
    EnsureDirsWellFormed(t, parent);
    var e := EnsureDirs(t, parent);
    assert abs !in Prefixes(parent);
    InsertWellFormed(e, abs, File(""));
  }

  lemma MkdirWellFormed(t: Tree, base: Path, path: string)
    requires IsBase(base) && WellFormed(t) && Mkdir(t, base, path).Ok?
    ensures WellFormed(Mkdir(t, base, path).value)
  {
    var abs := ToAbsPath(base, path).value;
    InsertWellFormed(t, abs, Directory);
  }

  lemma WriteWellFormed(t: Tree, base: Path, path: string, data: string)
    requires IsBase(base) && WellFormed(t) && Write(t, base, path, data).Ok?
    ensures WellFormed(Write(t, base, path, data).value)
  {
    var abs := ToAbsPath(base, path).value;
    var u := Write(t, base, path, data).value;
    forall p | p in u && |p| > 0 ensures Parent(p) in u && u[Parent(p)].Directory? {
      assert Parent(p) != abs;
    }
  }

  lemma RmWellFormed(t: Tree, base: Path, path: string)
    requires IsBase(base) && WellFormed(t) && Rm(t, base, path).Ok?
    ensures WellFormed(Rm(t, base, path).value)
  {
    var abs := ToAbsPath(base, path).value;
    PruneWellFormed(t, abs);
    assert Rm(t, base, path).value == Prune(t, abs);
  }

  /** Below `dst`, every grafted entry other than `dst` has its parent grafted
      as a directory. */
  lemma GraftParent(t: Tree, src: Path, dst: Path, p: Path)
    requires WellFormed(t) && p in Graft(t, src, dst) && p != dst
    ensures Parent(p) in Graft(t, src, dst) && Graft(t, src, dst)[Parent(p)].Directory?
  {
    var g := Graft(t, src, dst);
    var x := p[|dst|..];
    assert p == dst + x;
    var q := src + x;
    assert q in t;
    var pq := Parent(q);
    ParentOfAppend(src, x);
    ParentOfAppend(dst, x);
    assert src <= pq && pq in t && t[pq].Directory?;
    assert Rebase(pq, src, dst) == Parent(p);
  }

  /** The parent of `a + x`, for a non-empty `x`, extends `a`. */
  lemma ParentOfAppend(a: Path, x: Path)
    requires |x| > 0
    ensures Parent(a + x) == a + x[..|x| - 1]
    ensures a <= Parent(a + x)
  {
    assert (a + x)[..|a + x| - 1] == a + x[..|x| - 1];
  }

  lemma CopyDirWellFormed(t: Tree, src: Path, dst: Path)
    requires WellFormed(t) && dst in t && t[dst].Directory? && src in t && t[src].Directory?
    ensures WellFormed(CopyDir(t, src, dst))
  {
    if !(src <= dst || CopyClashes(t, src, dst)) {
      var u := t + Graft(t, src, dst);
      assert CopyDir(t, src, dst) == u;
      forall p | p in u && |p| > 0 ensures Parent(p) in u && u[Parent(p)].Directory? {
        CopyParent(t, src, dst, p);
      }
    }
  }

  /** Each entry of the merged copy has its parent there, as a directory. */
  lemma CopyParent(t: Tree, src: Path, dst: Path, p: Path)
    requires WellFormed(t) && dst in t && t[dst].Directory? && src in t && t[src].Directory?
    requires !(src <= dst) && !CopyClashes(t, src, dst)
    requires p in t + Graft(t, src, dst) && |p| > 0
    ensures var u := t + Graft(t, src, dst);
      Parent(p) in u && u[Parent(p)].Directory?
  {
    var g := Graft(t, src, dst);
    if p in g {
      if p == dst {
        assert Parent(p) in t && t[Parent(p)].Directory?;
        assert !(dst <= Parent(p));
        assert Parent(p) !in g;
      } else {
        GraftParent(t, src, dst, p);
      }
    } else {
      var pp := Parent(p);
      assert p in t;
      if pp !in g {
        assert pp in t && t[pp].Directory?;
      } else {
        var q := src + pp[|dst|..];
        assert q in t && src <= q && Rebase(q, src, dst) == pp;
        assert pp in t && t[pp].Directory?;
        assert t[q].Directory?;
        assert g[pp] == t[q];
      }
    }
  }

  lemma CpWellFormed(t: Tree, base: Path, source: string, target: string)
    requires IsBase(base) && WellFormed(t) && Cp(t, base, source, target).Ok?
    ensures WellFormed(Cp(t, base, source, target).value)
  {
    var src := ToAbsPath(base, source).value;
    var dst := ToAbsPath(base, target).value;
    if t[src].Directory? {
      CopyDirWellFormed(t, src, dst);
    } else {
      assert IsNormalSegment(src[|src| - 1]);
      ResolveChild(dst, Basename(src));
      InsertWellFormed(t, dst + [Basename(src)], t[src]);
    }
  }

  /** The part of the tree that `Relocate` keeps from before the move. */
  function Kept(t: Tree, src: Path, dst: Path): Tree {
    Prune(Prune(EnsureDirs(t, Parent(dst)), dst), src)
  }

  lemma KeptWellFormed(t: Tree, src: Path, dst: Path)
    requires WellFormed(t) && !FileOnWay(t, Parent(dst))
    requires !(src <= dst) && !(dst <= src)
    ensures WellFormed(Kept(t, src, dst))
    ensures Parent(dst) in Kept(t, src, dst) && Kept(t, src, dst)[Parent(dst)].Directory?
  {
    var e := EnsureDirs(t, Parent(dst));
    EnsureDirsWellFormed(t, Parent(dst));
    PruneWellFormed(e, dst);
    PruneWellFormed(Prune(e, dst), src);
    assert !(dst <= Parent(dst));
    assert !(src <= Parent(dst));
  }

  lemma RelocateWellFormed(t: Tree, src: Path, dst: Path)
    requires WellFormed(t) && src in t
    requires !(src <= dst) && !(dst <= src) && !FileOnWay(t, Parent(dst))
    ensures WellFormed(Relocate(t, src, dst))
  {
    var u := Relocate(t, src, dst);
    assert u == Kept(t, src, dst) + Graft(t, src, dst);
    forall p | p in u && |p| > 0 ensures Parent(p) in u && u[Parent(p)].Directory? {
      RelocateParent(t, src, dst, p);
    }
  }

  /** Each entry of the moved tree has its parent there, as a directory. */
  lemma RelocateParent(t: Tree, src: Path, dst: Path, p: Path)
    requires WellFormed(t) && src in t
    requires !(src <= dst) && !(dst <= src) && !FileOnWay(t, Parent(dst))
    requires p in Kept(t, src, dst) + Graft(t, src, dst) && |p| > 0
    ensures var u := Kept(t, src, dst) + Graft(t, src, dst);
      Parent(p) in u && u[Parent(p)].Directory?
  {
    var k := Kept(t, src, dst);
    var g := Graft(t, src, dst);
    KeptWellFormed(t, src, dst);
    if p in g {
      if p == dst {
        assert !(dst <= Parent(dst));
        assert Parent(dst) !in g;
      } else {
        GraftParent(t, src, dst, p);
      }
    } else {
      assert p in k && !(dst <= p);
      assert Parent(p) <= p;
      assert Parent(p) !in g;
    }
  }

  lemma MvWellFormed(t: Tree, base: Path, source: string, target: string, rename: bool)
    requires IsBase(base) && WellFormed(t) && Mv(t, base, source, target, rename).Ok?
    ensures WellFormed(Mv(t, base, source, target, rename).value)
  {
    var src := ToAbsPath(base, source).value;
    var dst := ToAbsPath(base, target).value;
    assert IsNormalSegment(src[|src| - 1]);
    ResolveChild(dst, Basename(src));
    var dest := MoveDestination(t, src, dst, rename);
    assert Mv(t, base, source, target, rename) == MoveEntry(t, src, dest);
    RelocateWellFormed(t, src, dest);
  }

  // ---------------------------------------------------------------------------
  // An end-to-end run
  // ---------------------------------------------------------------------------

  lemma DocsPaths(base: Path)
    requires IsBase(base)
    ensures ToAbsPath(base, "docs") == Some(base + ["docs"])
    ensures ToAbsPath(base, "docs/a.txt") == Some(base + ["docs", "a.txt"])
  {
    var d: seq<Segment> := ["docs"];
    var f: seq<Segment> := ["docs", "a.txt"];
    assert IsNormalSegment("docs") && IsNormalSegment("a.txt");
    ToAbsPathPlain(base, d);
    assert Join(d) == "docs";
    ToAbsPathPlain(base, f);
    assert Join(f) == "docs" + "/" + Join(["a.txt"]);
    assert Join(f) == "docs/a.txt";
  }

  /** mkdir("docs"), touch("docs/a.txt"), write("docs/a.txt", "hi"), rm("docs")
      on a sandbox root that is a directory without "docs": each step succeeds,
      `stat` reports the expected kinds, `read` opens the written file, and the
      final listing of the root no longer has "docs". */
  lemma EndToEnd(t: Tree, base: Path)
    requires IsBase(base) && WellFormed(t) && base in t && t[base].Directory?
    requires base + ["docs"] !in t
    ensures Mkdir(t, base, "docs").Ok?
    ensures var t1 := Mkdir(t, base, "docs").value;
      && Stat(t1, base, "docs").Ok? && Stat(t1, base, "docs").value.isDirectory
      && Touch(t1, base, "docs/a.txt").Ok?
      && var t2 := Touch(t1, base, "docs/a.txt").value;
      && Stat(t2, base, "docs/a.txt").Ok? && Stat(t2, base, "docs/a.txt").value.isFile
      && Write(t2, base, "docs/a.txt", "hi").Ok?
      && var t3 := Write(t2, base, "docs/a.txt", "hi").value;
      && Read(t3, base, "docs/a.txt") == Ok(base + ["docs", "a.txt"])
      && t3[base + ["docs", "a.txt"]] == File("hi")
      && Rm(t3, base, "docs").Ok?
      && var t4 := Rm(t3, base, "docs").value;
      && Dir(t4, base, "").Ok?
      && forall e :: e in Dir(t4, base, "").value ==> e.name != "docs"
  {
    var docs := base + ["docs"];
    var file := base + ["docs", "a.txt"];
    DocsPaths(base);
    assert Parent(docs) == base && Parent(file) == docs;
    assert base <= docs && base <= file && docs <= file;
    var t1 := Mkdir(t, base, "docs").value;
    InsertWellFormed(t, docs, Directory);
    assert file !in t by {
      assert file in t ==> Parent(file) in t;
    }
    assert file !in t1;
    EnsureDirsPresent(t1, docs);
    assert Touch(t1, base, "docs/a.txt").Ok?;
    var t2 := Touch(t1, base, "docs/a.txt").value;
    assert file in t2 && t2[file] == File("");
    assert Write(t2, base, "docs/a.txt", "hi").Ok?;
    var t3 := Write(t2, base, "docs/a.txt", "hi").value;
    assert docs in t3 && base in t3;
    assert Rm(t3, base, "docs").Ok?;
    var t4 := Rm(t3, base, "docs").value;
    assert !(docs <= base);
    assert base in t4 && t4[base].Directory?;
    assert docs !in t4;
  }
}

=== FILE: paths.dfy ===
/** Lexical POSIX paths as used by the file service: splitting a user string on '/',
    Node's `path.resolve` normalisation, `path.relative`, `path.basename` and the
    `dir` part of `path.parse`. Symlinks play no part; everything is textual. */
module Paths {
  import opened Results

  /** One component of a path as produced by splitting on '/'. */
  type Segment = string

  /** An absolute path as a sequence of segments; [] is the root "/". */
  type Path = seq<Segment>

  /** A segment that survives normalisation: not empty, not "." or "..", no separator. */
  predicate IsNormalSegment(s: Segment) {
    s != "" && s != "." && s != ".." && '/' !in s
  }

  predicate IsNormal(p: Path) {
    forall i :: 0 <= i < |p| ==> IsNormalSegment(p[i])
  }

  /** The sandbox root is a normal absolute path with at least one segment
      (it is `<cwd>/data`). */
  predicate IsBase(base: Path) {
    IsNormal(base) && |base| > 0
  }

  predicate NoSeparator(segs: seq<Segment>) {
    forall k :: 0 <= k < |segs| ==> '/' !in segs[k]
  }

  // ---------------------------------------------------------------------------
  // Splitting and joining on '/' (JavaScript `String.prototype.split("/")`)
  // ---------------------------------------------------------------------------

  /** Index of the first '/' in `s`, or |s| when there is none. */
  function SlashIndex(s: string): (i: nat)
    ensures i <= |s|
    ensures i < |s| ==> s[i] == '/'
    ensures forall j :: 0 <= j < i ==> s[j] != '/'
  {
    if |s| == 0 || s[0] == '/' then 0 else 1 + SlashIndex(s[1..])
  }

  /** `s.split("/")`: always at least one piece, no piece holds a separator. */
  function Split(s: string): (r: seq<Segment>)
    ensures |r| >= 1
    ensures NoSeparator(r)
    decreases |s|
  {
    var i := SlashIndex(s);
    assert '/' !in s[..i] by {
      forall j | 0 <= j < i ensures s[..i][j] != '/' { }
    }
    if i == |s| then [s] else [s[..i]] + Split(s[i + 1..])
  }

  /** `segs.join("/")`. */
  function Join(segs: seq<Segment>): string
    requires |segs| >= 1
  {
    if |segs| == 1 then segs[0] else segs[0] + "/" + Join(segs[1..])
  }

  /** The joined string starts with the first segment. */
  lemma {:induction false} JoinStartsWith(segs: seq<Segment>)
    requires |segs| >= 1
    ensures segs[0] <= Join(segs)
    ensures |Join(segs)| >= |segs[0]|
  {
  }

  lemma {:induction false} JoinSplit(s: string)
    ensures Join(Split(s)) == s
    decreases |s|
  {
    var i := SlashIndex(s);
    if i < |s| {
      var a, rest := s[..i], s[i + 1..];
      var tail := Split(rest);
      assert Split(s) == [a] + tail by { SplitAtSlash(s, i); }
      assert Join(tail) == rest by { JoinSplit(rest); }
      assert Join([a] + tail) == a + "/" + Join(tail) by { JoinCons(a, tail); }
      assert s == a + "/" + rest by { Around(s, i); }
    } else {
      assert Split(s) == [s];
    }
  }

  lemma Around(s: string, i: nat)
    requires i < |s| && s[i] == '/'
    ensures s == s[..i] + "/" + s[i + 1..]
  {
  }

  /** One step of `split`: the text before the first '/', then the split of the rest. */
  lemma SplitAtSlash(s: string, i: nat)
    requires i == SlashIndex(s) < |s|
    ensures Split(s) == [s[..i]] + Split(s[i + 1..])
  {
  }

  /** One step of `join`. */
  lemma JoinCons(a: Segment, segs: seq<Segment>)
    requires |segs| >= 1
    ensures Join([a] + segs) == a + "/" + Join(segs)
  {
    assert ([a] + segs)[1..] == segs;
  }

  lemma SlashIndexOfSeparated(a: string, b: string)
    requires '/' !in a
    ensures SlashIndex(a + "/" + b) == |a|
  {
    var s := a + "/" + b;
    var i := SlashIndex(s);
    assert s[|a|] == '/';
    assert forall j :: 0 <= j < |a| ==> s[j] == a[j];
  }

  lemma SlashIndexOfPlain(a: string)
    requires '/' !in a
    ensures SlashIndex(a) == |a|
  {
    assert forall j :: 0 <= j < |a| ==> a[j] in a;
  }

  lemma {:induction false} SplitJoin(segs: seq<Segment>)
    requires |segs| >= 1
    requires NoSeparator(segs)
    ensures Split(Join(segs)) == segs
    decreases |segs|
  {
    if |segs| == 1 {
      assert Split(segs[0]) == [segs[0]] by { SlashIndexOfPlain(segs[0]); }
      assert segs == [segs[0]];
    } else {
      var a, tail := segs[0], segs[1..];
      var rest := Join(tail);
      var s := a + "/" + rest;
      assert Join(segs) == s by {
        assert segs == [a] + tail;
        JoinCons(a, tail);
      }
      var i := |a|;
      assert SlashIndex(s) == i by { SlashIndexOfSeparated(a, rest); }
      assert s[..i] == a && s[i + 1..] == rest by { SliceAround(a, rest); }
      assert Split(s) == [a] + Split(rest) by { SplitAtSlash(s, i); }
      assert Split(rest) == tail by {
        assert NoSeparator(tail) by {
          forall k | 0 <= k < |tail| ensures '/' !in tail[k] {
            assert tail[k] == segs[k + 1];
          }
        }
        SplitJoin(tail);
      }
      assert segs == [a] + tail;
    }
  }

  lemma SliceAround(a: string, b: string)
    ensures (a + "/" + b)[..|a|] == a && (a + "/" + b)[|a| + 1..] == b
  {
  }

  // ---------------------------------------------------------------------------
  // Normalisation (`path.resolve`)
  // ---------------------------------------------------------------------------

  /** Drops the last segment; the parent of the root is the root (`path.parse(p).dir`). */
  function Parent(p: Path): Path {
    if |p| == 0 then p else p[..|p| - 1]
  }

  /** `path.basename`: the last segment, "" for the root. */
  function Basename(p: Path): (r: Segment)
    ensures |p| == 0 ==> r == ""
    ensures |p| > 0 ==> Parent(p) + [r] == p
  {
    if |p| == 0 then "" else p[|p| - 1]
  }

  /** Normalises `segs` onto the absolute path `acc`, the way Node's resolver does
      for an absolute result: empty and "." segments vanish, ".." removes the last
      segment and stops at the root, anything else is appended. */
  function Walk(acc: Path, segs: seq<Segment>): (r: Path)
    requires IsNormal(acc)
    requires NoSeparator(segs)
    ensures IsNormal(r)
    ensures |r| <= |acc| + |segs|
    decreases |segs|
  {
    if |segs| == 0 then acc
    else if segs[0] == "" || segs[0] == "." then Walk(acc, segs[1..])
    else if segs[0] == ".." then Walk(Parent(acc), segs[1..])
    else Walk(acc + [segs[0]], segs[1..])
  }

  /** `path.resolve(from, rel)` for an absolute, normal `from`: an absolute `rel`
      starts over at the root. */
  function Resolve(from: Path, rel: string): (r: Path)
    requires IsNormal(from)
    ensures IsNormal(r)
  {
    if |rel| > 0 && rel[0] == '/' then Walk([], Split(rel)) else Walk(from, Split(rel))
  }

  /** `BASE_PATH = path.resolve(process.cwd(), 'data')`. */
  function BasePath(cwd: string): (base: Path)
    ensures IsBase(base)
    ensures Basename(base) == "data"
  {
    var dir := Resolve([], cwd);
    SplitJoin(["data"]);
    Resolve(dir, "data")
  }

  /** `toAbsPath`: the empty string stays empty (None); anything else is
      prefixed with "./" and resolved against the sandbox root, so even a
      leading '/' is re-rooted under it. */
  function ToAbsPath(base: Path, path: string): (r: Option<Path>)
    requires IsNormal(base)
    ensures r.None? <==> path == ""
    ensures r.Some? ==> IsNormal(r.value)
  {
    if path == "" then None else Some(Resolve(base, "./" + path))
  }

  // ---------------------------------------------------------------------------
  // `path.relative` and the access check
  // ---------------------------------------------------------------------------

  /** Length of the longest common prefix of two paths. */
  function CommonPrefixLength(a: Path, b: Path): (n: nat)
    ensures n <= |a| && n <= |b|
    ensures a[..n] == b[..n]
    ensures n < |a| && n < |b| ==> a[n] != b[n]
  {
    if |a| == 0 || |b| == 0 || a[0] != b[0] then 0
    else
      var n := 1 + CommonPrefixLength(a[1..], b[1..]);
      assert a[..n] == [a[0]] + a[1..][..n - 1];
      assert b[..n] == [b[0]] + b[1..][..n - 1];
      n
  }

  /** `path.relative(from, to)` for absolute normal paths, as segments:
      one ".." per segment of `from` below the common prefix, then the rest of `to`.
      The empty sequence stands for the empty string Node returns for equal paths. */
  function Relative(from: Path, to: Path): seq<Segment> {
    var n := CommonPrefixLength(from, to);
    Ups(|from| - n) + to[n..]
  }

  /** `k` ".." segments. */
  function Ups(k: nat): (r: seq<Segment>)
    ensures |r| == k && forall j :: 0 <= j < k ==> r[j] == ".."
  {
    if k == 0 then [] else [".."] + Ups(k - 1)
  }

  /** `hasAccess`: the first segment of the relative path from the root to the
      target is not "..". */
  predicate HasAccess(base: Path, target: Path) {
    var rel := Relative(base, target);
    |rel| == 0 || rel[0] != ".."
  }

  // ---------------------------------------------------------------------------
  // Lemmas
  // ---------------------------------------------------------------------------

  lemma SplitCons(a: string, b: string)
    requires '/' !in a
    ensures Split(a + "/" + b) == [a] + Split(b)
  {
    var s := a + "/" + b;
    assert SlashIndex(s) == |a| by { SlashIndexOfSeparated(a, b); }
    assert s[..|a|] == a && s[|a| + 1..] == b by { SliceAround(a, b); }
    SplitAtSlash(s, |a|);
  }

  lemma SplitPlain(a: string)
    requires '/' !in a
    ensures Split(a) == [a]
  {
    SlashIndexOfPlain(a);
  }

  /** The key fact behind `hasAccess`: for a normal target, the relative path
      from the root does not start with ".." exactly when the root is a
      segment-wise prefix of the target (the target is the root or lies below it). */
  lemma HasAccessIffWithin(base: Path, target: Path)
    requires IsNormal(target)
    ensures HasAccess(base, target) <==> base <= target
  {
    var n := CommonPrefixLength(base, target);
    var rel := Relative(base, target);
    if base <= target {
      assert n == |base|;
      assert rel == target[n..];
      if |rel| > 0 {
        assert rel[0] == target[n];
        assert IsNormalSegment(target[n]);
      }
    } else {
      assert n < |base|;
      assert rel[0] == "..";
    }
  }

  /** The sandbox root itself passes the access check (the relative path is empty). */
  lemma BaseHasAccess(base: Path)
    ensures HasAccess(base, base)
  {
    var n := CommonPrefixLength(base, base);
    assert n == |base|;
    assert Relative(base, base) == [];
  }

  /** Walking a sequence of normal segments simply appends them. */
  lemma {:induction false} WalkNormal(acc: Path, segs: seq<Segment>)
    requires IsNormal(acc) && IsNormal(segs)
    ensures NoSeparator(segs)
    ensures Walk(acc, segs) == acc + segs
    decreases |segs|
  {
    if |segs| > 0 {
      WalkNormal(acc + [segs[0]], segs[1..]);
      assert acc + [segs[0]] + segs[1..] == acc + segs;
    }
  }

  /** Walking k leading ".." segments drops k trailing segments of the accumulator. */
  lemma {:induction false} WalkUp(acc: Path, k: nat, segs: seq<Segment>)
    requires IsNormal(acc) && NoSeparator(segs)
    requires k <= |acc| && k <= |segs|
    requires forall j :: 0 <= j < k ==> segs[j] == ".."
    ensures Walk(acc, segs) == Walk(acc[..|acc| - k], segs[k..])
    decreases k
  {
    if k > 0 {
      var up := Parent(acc);
      assert IsNormal(up) by { SliceNormal(acc, 0, |acc| - 1); }
      assert Walk(acc, segs) == Walk(up, segs[1..]) by {
        assert segs[0] == "..";
      }
      assert Walk(up, segs[1..]) == Walk(up[..|up| - (k - 1)], segs[k..]) by {
        WalkUp(up, k - 1, segs[1..]);
        assert segs[1..][k - 1..] == segs[k..];
      }
      assert up[..|up| - (k - 1)] == acc[..|acc| - k] by {
        TakeTake(acc, |acc| - 1, |acc| - k);
      }
    } else {
      assert segs[0..] == segs && acc[..|acc| - 0] == acc;
    }
  }

  lemma TakeTake(p: Path, i: nat, j: nat)
    requires j <= i <= |p|
    ensures p[..i][..j] == p[..j]
  {
  }

  /** `k` ".." segments followed by separator-free ones are separator-free. */
  lemma UpsThen(k: nat, rest: seq<Segment>)
    requires NoSeparator(rest)
    ensures NoSeparator(Ups(k) + rest)
    ensures (Ups(k) + rest)[k..] == rest
  {
    var segs := Ups(k) + rest;
    forall j | 0 <= j < |segs| ensures '/' !in segs[j] {
      if j < k { assert segs[j] == ".."; } else { assert segs[j] == rest[j - k]; }
    }
  }

  /** `path.resolve(from, path.relative(from, to)) == to` for normal absolute paths. */
  lemma RelativeRoundTrip(from: Path, to: Path)
    requires IsNormal(from) && IsNormal(to)
    ensures NoSeparator(Relative(from, to))
    ensures Walk(from, Relative(from, to)) == to
  {
    var n := CommonPrefixLength(from, to);
    var k := |from| - n;
    var rest, common := to[n..], from[..n];
    var rel := Relative(from, to);
    assert rel == Ups(k) + rest;
    assert IsNormal(rest) && IsNormal(common) by {
      SliceNormal(to, n, |to|);
      SliceNormal(from, 0, n);
      assert to[n..|to|] == rest && from[0..n] == common;
    }
    assert NoSeparator(rest) && Walk(common, rest) == common + rest by {
      WalkNormal(common, rest);
    }
    assert NoSeparator(rel) && rel[k..] == rest by { UpsThen(k, rest); }
    assert Walk(from, rel) == Walk(common, rest) by {
      assert forall j :: 0 <= j < k ==> rel[j] == "..";
      WalkUp(from, k, rel);
      assert from[..|from| - k] == common;
    }
    assert common + rest == to by {
      assert common == to[..n];
      Rejoin(to, n);
    }
  }

  lemma Rejoin(p: Path, n: nat)
    requires n <= |p|
    ensures p[..n] + p[n..] == p
  {
  }

  /** A slice of a normal path is normal. */
  lemma SliceNormal(p: Path, i: nat, j: nat)
    requires IsNormal(p) && i <= j <= |p|
    ensures IsNormal(p[i..j])
  {
    forall k | 0 <= k < j - i ensures IsNormalSegment(p[i..j][k]) {
      assert p[i..j][k] == p[i + k];
    }
  }

  predicate NoParentSegment(segs: seq<Segment>) {
    forall k :: 0 <= k < |segs| ==> segs[k] != ".."
  }

  /** Without ".." segments normalisation only ever extends the accumulator. */
  lemma {:induction false} WalkExtends(acc: Path, segs: seq<Segment>)
    requires IsNormal(acc) && NoSeparator(segs) && NoParentSegment(segs)
    ensures acc <= Walk(acc, segs)
    decreases |segs|
  {
    if |segs| > 0 {
      if segs[0] == "" || segs[0] == "." {
        WalkExtends(acc, segs[1..]);
      } else {
        WalkExtends(acc + [segs[0]], segs[1..]);
      }
    }
  }

  /** A non-empty user path without a ".." segment resolves inside the sandbox,
      including one that starts with '/', since the "./" prefix re-roots it. */
  lemma ToAbsPathConfined(base: Path, path: string)
    requires IsNormal(base)
    requires path != "" && NoParentSegment(Split(path))
    ensures ToAbsPath(base, path).Some?
    ensures base <= ToAbsPath(base, path).value
    ensures HasAccess(base, ToAbsPath(base, path).value)
  {
    SplitCons(".", path);
    assert "./" + path == "." + "/" + path;
    var segs := Split("./" + path);
    assert segs == ["."] + Split(path);
    WalkExtends(base, segs);
    HasAccessIffWithin(base, ToAbsPath(base, path).value);
  }

  /** A leading '/' in the user path is ignored: it names the same place as the
      path without it. */
  lemma ToAbsPathReRoots(base: Path, path: string)
    requires IsNormal(base) && path != ""
    ensures ToAbsPath(base, "/" + path) == ToAbsPath(base, path)
  {
    var tail := Split(path);
    var viaSlash, direct := "./" + ("/" + path), "./" + path;
    assert ToAbsPath(base, "/" + path) == Some(Walk(base, Split(viaSlash))) by {
      assert viaSlash[0] == '.';
    }
    assert ToAbsPath(base, path) == Some(Walk(base, Split(direct))) by {
      assert direct[0] == '.';
    }
    assert Walk(base, Split(viaSlash)) == Walk(base, tail) by {
      assert Split(viaSlash) == ["."] + ([""] + tail) by {
        DotPrefix("/" + path);
        SplitCons("", path);
        assert "" + "/" + path == "/" + path;
      }
      WalkSkip(base, "", tail);
      WalkSkip(base, ".", [""] + tail);
    }
    assert Walk(base, Split(direct)) == Walk(base, tail) by {
      DotPrefix(path);
      WalkSkip(base, ".", tail);
    }
  }

  /** An empty or "." segment leaves the walk where it is. */
  lemma WalkSkip(acc: Path, seg: Segment, rest: seq<Segment>)
    requires IsNormal(acc) && NoSeparator(rest) && (seg == "" || seg == ".")
    ensures NoSeparator([seg] + rest)
    ensures Walk(acc, [seg] + rest) == Walk(acc, rest)
  {
    assert ([seg] + rest)[1..] == rest;
  }

  /** "." names the sandbox root itself. */
  lemma ToAbsPathDot(base: Path)
    requires IsNormal(base)
    ensures ToAbsPath(base, ".") == Some(base)
  {
    SplitCons(".", ".");
    SplitPlain(".");
    assert "./." == "." + "/" + ".";
    var segs := Split("./.");
    assert segs == [".", "."];
    assert Resolve(base, "./.") == Walk(base, segs);
    assert Walk(base, segs) == Walk(base, segs[1..]) == Walk(base, []);
  }

  /** ".." names the parent of the sandbox root, which the access check refuses. */
  lemma ToAbsPathParentEscapes(base: Path)
    requires IsBase(base)
    ensures ToAbsPath(base, "..") == Some(Parent(base))
    ensures !HasAccess(base, ToAbsPath(base, "..").value)
  {
    SplitCons(".", "..");
    SplitPlain("..");
    assert "./.." == "." + "/" + "..";
    var segs := Split("./..");
    assert segs == [".", ".."];
    assert Resolve(base, "./..") == Walk(base, segs);
    assert Walk(base, segs) == Walk(base, segs[1..]) == Walk(Parent(base), []);
    HasAccessIffWithin(base, Parent(base));
  }

  /** A leading "../" does not always escape: going up and back down through the
      root's own name lands on the root again, which passes the access check. */
  lemma ToAbsPathUpAndBack(base: Path)
    requires IsBase(base)
    ensures ToAbsPath(base, "../" + Basename(base)) == Some(base)
    ensures HasAccess(base, base)
  {
    var name := Basename(base);
    assert IsNormalSegment(name) by {
      assert IsNormalSegment(base[|base| - 1]);
    }
    var path := "./" + ("../" + name);
    var segs := [".", "..", name];
    assert Split(path) == segs by {
      SplitPlain(name);
      assert "../" + name == ".." + "/" + name;
      SplitCons("..", name);
      assert path == "." + "/" + ("../" + name);
      SplitCons(".", "../" + name);
    }
    assert Resolve(base, path) == Walk(base, segs) by {
      assert path[0] == '.';
    }
    assert Walk(base, segs) == Walk(base, segs[1..]) == Walk(Parent(base), segs[2..]);
    assert Walk(Parent(base), segs[2..]) == Walk(Parent(base) + [name], []);
    BaseHasAccess(base);
  }

  /** Resolving a plain segment onto a path appends it (`path.resolve(dir, basename)`). */
  lemma ResolveChild(p: Path, name: Segment)
    requires IsNormal(p) && IsNormalSegment(name)
    ensures Resolve(p, name) == p + [name]
  {
    SplitPlain(name);
    assert name[0] in name;
    assert Walk(p, [name]) == Walk(p + [name], []);
  }

  lemma SplitDotJoin(segs: seq<Segment>)
    requires NoSeparator(segs) && |segs| > 0
    ensures Split("./" + Join(segs)) == ["."] + segs
  {
    SplitJoin(segs);
    DotPrefix(Join(segs));
  }

  /** The "./" that `toAbsPath` puts in front becomes one leading "." segment. */
  lemma DotPrefix(s: string)
    ensures Split("./" + s) == ["."] + Split(s)
  {
    SplitCons(".", s);
    assert "./" + s == "." + "/" + s;
  }

  /** An absolute name starts over at the root, whatever it is resolved against. */
  lemma ResolveAbsolute(from: Path, name: Segment)
    requires IsNormal(from) && IsNormalSegment(name)
    ensures Resolve(from, "/" + name) == [name]
  {
    SplitPlain(name);
    SplitCons("", name);
    assert "/" + name == "" + "/" + name;
    var segs := Split("/" + name);
    assert segs == ["", name];
    assert Walk([], segs) == Walk([], segs[1..]) == Walk([] + [name], []);
  }
}

=== FILE: results.dfy ===
/** Failure-carrying results shared by the file service and the bookmark store.
    A thrown `Error` in the service code becomes `Err`; a normal return becomes `Ok`. */
module Results {

  datatype Option<+T> = None | Some(value: T)

  datatype Result<+T, +E> = Ok(value: T) | Err(error: E)
}

=== FILE: trees.dfy ===
/** The file system under the service, as a finite map from normal absolute
    paths to nodes. Only the shape matters: whether a path exists and whether it
    is a file or a directory; a file also carries its content. */
module Trees {
  import opened Paths

  datatype Node = File(content: string) | Directory

  type Tree = map<Path, Node>

  /** Every entry other than the root hangs below a directory of the tree. */
  predicate WellFormed(t: Tree) {
    forall p :: p in t && |p| > 0 ==> Parent(p) in t && t[Parent(p)].Directory?
  }

  /** `p` exists in `t` and `u` alike, with the same node. */
  predicate SameAt(t: Tree, u: Tree, p: Path) {
    (p in t <==> p in u) && (p in t && p in u ==> t[p] == u[p])
  }

  /** Nothing outside the subtree rooted at `root` differs between `t` and `u`. */
  ghost predicate ChangesWithin(t: Tree, u: Tree, root: Path) {
    forall p :: !(root <= p) ==> SameAt(t, u, p)
  }

  /** All prefixes of `q`, from the root to `q` itself. */
  function Prefixes(q: Path): (r: set<Path>)
    ensures forall p :: p in r <==> p <= q
  {
    var r := set i | 0 <= i <= |q| :: q[..i];
    assert forall p :: p <= q ==> p == q[..|p|];
    r
  }

  /** Some prefix of `q` is a file, so `q` cannot be reached as a directory. */
  predicate FileOnWay(t: Tree, q: Path) {
    exists p | p in Prefixes(q) :: p in t && t[p].File?
  }

  /** The tree without the subtree rooted at `root` (`fs.remove`). */
  function Prune(t: Tree, root: Path): (r: Tree)
    ensures forall p :: p in r <==> p in t && !(root <= p)
    ensures forall p :: p in r ==> r[p] == t[p]
  {
    map p | p in t && !(root <= p) :: t[p]
  }

  /** Creates every missing prefix of `q` as a directory (fs-extra's `mkdirs`). */
  function EnsureDirs(t: Tree, q: Path): (r: Tree)
    ensures r.Keys == t.Keys + Prefixes(q)
    ensures forall p :: p in t ==> r[p] == t[p]
    ensures forall p :: p in r && p !in t ==> r[p] == Directory
  {
    t + map p | p in Prefixes(q) && p !in t :: Directory
  }

  /** `dst + q[|src|..]`: where `q` inside the subtree at `src` lands below `dst`. */
  function Rebase(q: Path, src: Path, dst: Path): Path
    requires src <= q
  {
    dst + q[|src|..]
  }

  /** The subtree of `t` at `src`, re-rooted at `dst`. */
  function Graft(t: Tree, src: Path, dst: Path): (r: Tree)
    ensures forall q :: q in t && src <= q ==> Rebase(q, src, dst) in r && r[Rebase(q, src, dst)] == t[q]
    ensures forall p :: p in r ==> dst <= p && src + p[|dst|..] in t && r[p] == t[src + p[|dst|..]]
  {
    var r := map p | p in GraftKeys(t, src, dst) :: t[src + p[|dst|..]];
    assert forall q :: q in t && src <= q ==> src + Rebase(q, src, dst)[|dst|..] == q;
    r
  }

  function GraftKeys(t: Tree, src: Path, dst: Path): (r: set<Path>)
    ensures forall p :: p in r ==> dst <= p && src + p[|dst|..] in t
    ensures forall q :: q in t && src <= q ==> Rebase(q, src, dst) in r
  {
    var r := set q | q in t && src <= q :: Rebase(q, src, dst);
    assert forall q :: q in t && src <= q ==> src + Rebase(q, src, dst)[|dst|..] == q;
    r
  }

  // ---------------------------------------------------------------------------
  // Well-formedness
  // ---------------------------------------------------------------------------

  /** In a well-formed tree every proper prefix of an entry is a directory of it. */
  lemma {:induction false} AncestorsAreDirs(t: Tree, p: Path, i: nat)
    requires WellFormed(t) && p in t && i <= |p|
    ensures p[..i] in t
    ensures i < |p| ==> t[p[..i]].Directory?
    decreases |p| - i
  {
    if i < |p| {
      AncestorsAreDirs(t, p, i + 1);
      assert Parent(p[..i + 1]) == p[..i];
    } else {
      assert p[..i] == p;
    }
  }

  /** Hence, for an entry of a well-formed tree, `mkdirs` of it adds nothing. */
  lemma EnsureDirsPresent(t: Tree, q: Path)
    requires WellFormed(t) && q in t
    ensures EnsureDirs(t, q) == t
    ensures q in t && (t[q].Directory? ==> !FileOnWay(t, q))
  {
    forall p | p in Prefixes(q) ensures p in t && (p != q ==> t[p].Directory?) {
      AncestorsAreDirs(t, q, |p|);
      assert q[..|p|] == p;
    }
    assert EnsureDirs(t, q).Keys == t.Keys;
  }

  lemma PruneWellFormed(t: Tree, root: Path)
    requires WellFormed(t)
    ensures WellFormed(Prune(t, root))
  {
    var r := Prune(t, root);
    forall p | p in r && |p| > 0 ensures Parent(p) in r && r[Parent(p)].Directory? {
      assert Parent(p) <= p;
    }
  }

  lemma EnsureDirsWellFormed(t: Tree, q: Path)
    requires WellFormed(t) && !FileOnWay(t, q)
    ensures WellFormed(EnsureDirs(t, q))
    ensures q in EnsureDirs(t, q) && EnsureDirs(t, q)[q].Directory?
  {
    var r := EnsureDirs(t, q);
    forall p | p in r && |p| > 0 ensures Parent(p) in r && r[Parent(p)].Directory? {
      if p !in t {
        assert Parent(p) <= p <= q;
        assert Parent(p) in Prefixes(q);
      }
    }
    assert q in Prefixes(q);
  }

  /** Adding a child below an existing directory, or replacing a file by a file,
      keeps the tree well-formed. */
  lemma InsertWellFormed(t: Tree, p: Path, n: Node)
    requires WellFormed(t) && |p| > 0
    requires Parent(p) in t && t[Parent(p)].Directory?
    requires p !in t || (t[p].File? && n.File?)
    ensures WellFormed(t[p := n])
  {
    var r := t[p := n];
    forall q | q in r && |q| > 0 ensures Parent(q) in r && r[Parent(q)].Directory? {
      if q != p && Parent(q) == p {
        assert false;
      }
    }
  }
}

=== FILE: uuids.dfy ===
/** Record ids are BSON UUIDs. The store compares them through
    `UUID.toHexString()`: 32 lower-case hexadecimal digits grouped 8-4-4-4-12
    with dashes. Matching a record by an id string is only sound because that
    text form is one-to-one; the round trips below say so. */
module Uuids {
  import opened Results

  newtype Byte = x: int | 0 <= x < 256

  type Uuid = s: seq<Byte> | |s| == 16 witness seq(16, _ => 0)

  /** Lower-case hexadecimal digit of a value below 16. */
  function HexDigit(n: int): (c: char)
    requires 0 <= n < 16
  {
    if n < 10 then ('0' as int + n) as char else ('a' as int + n - 10) as char
  }

  /** The value of a lower-case hexadecimal digit; anything else is rejected. */
  function DigitValue(c: char): (r: Option<int>)
    ensures r.Some? ==> 0 <= r.value < 16 && HexDigit(r.value) == c
  {
    if '0' <= c <= '9' then Some(c as int - '0' as int)
    else if 'a' <= c <= 'f' then Some(c as int - 'a' as int + 10)
    else None
  }

  lemma DigitRoundTrip(n: int)
    requires 0 <= n < 16
    ensures DigitValue(HexDigit(n)) == Some(n)
  {
  }

  /** Two digits per byte, high nibble first. */
  function HexBytes(bs: seq<Byte>): (s: string)
    ensures |s| == 2 * |bs|
  {
    if |bs| == 0 then ""
    else [HexDigit(bs[0] as int / 16), HexDigit(bs[0] as int % 16)] + HexBytes(bs[1..])
  }

  /** Reads pairs of lower-case digits back into bytes. */
  function ParseBytes(s: string): (r: Option<seq<Byte>>)
    ensures r.Some? ==> 2 * |r.value| == |s|
  {
    if |s| == 0 then Some([])
    else if |s| == 1 then None
    else match (DigitValue(s[0]), DigitValue(s[1]), ParseBytes(s[2..]))
      case (Some(hi), Some(lo), Some(rest)) => Some([(hi * 16 + lo) as Byte] + rest)
      case _ => None
  }

  lemma {:induction false} ParseHexBytes(bs: seq<Byte>)
    ensures ParseBytes(HexBytes(bs)) == Some(bs)
  {
    if |bs| > 0 {
      var s := HexBytes(bs);
      var b := bs[0] as int;
      DigitRoundTrip(b / 16);
      DigitRoundTrip(b % 16);
      assert s[2..] == HexBytes(bs[1..]);
      ParseHexBytes(bs[1..]);
      assert bs == [bs[0]] + bs[1..];
    }
  }

  lemma {:induction false} HexParsedBytes(s: string, bs: seq<Byte>)
    requires ParseBytes(s) == Some(bs)
    ensures HexBytes(bs) == s
  {
    if |s| > 0 {
      var hi := DigitValue(s[0]).value;
      var lo := DigitValue(s[1]).value;
      var rest := ParseBytes(s[2..]).value;
      assert bs == [(hi * 16 + lo) as Byte] + rest;
      HexParsedBytes(s[2..], rest);
      assert (hi * 16 + lo) / 16 == hi && (hi * 16 + lo) % 16 == lo;
      assert s == [s[0], s[1]] + s[2..];
    }
  }

  /** `UUID.toHexString()`. */
  function Hex(u: Uuid): (s: string)
    ensures |s| == 36
  {
    HexBytes(u[..4]) + "-" + HexBytes(u[4..6]) + "-" + HexBytes(u[6..8]) + "-"
      + HexBytes(u[8..10]) + "-" + HexBytes(u[10..])
  }

  /** The inverse of `Hex`: only the canonical dashed lower-case form is accepted. */
  function ParseHex(s: string): (r: Option<Uuid>)
  {
    if |s| != 36 || s[8] != '-' || s[13] != '-' || s[18] != '-' || s[23] != '-' then None
    else match (ParseBytes(s[..8]), ParseBytes(s[9..13]), ParseBytes(s[14..18]),
                ParseBytes(s[19..23]), ParseBytes(s[24..]))
      case (Some(a), Some(b), Some(c), Some(d), Some(e)) => Some(a + b + c + d + e)
      case _ => None
  }

  lemma HexPieces(u: Uuid)
    ensures Hex(u)[..8] == HexBytes(u[..4])
    ensures Hex(u)[9..13] == HexBytes(u[4..6])
    ensures Hex(u)[14..18] == HexBytes(u[6..8])
    ensures Hex(u)[19..23] == HexBytes(u[8..10])
    ensures Hex(u)[24..] == HexBytes(u[10..])
    ensures Hex(u)[8] == '-' && Hex(u)[13] == '-' && Hex(u)[18] == '-' && Hex(u)[23] == '-'
  {
  }

  /** Decoding the text form gives back the id. */
  lemma ParseHexRoundTrip(u: Uuid)
    ensures ParseHex(Hex(u)) == Some(u)
  {
    var s := Hex(u);
    HexPieces(u);
    ParseHexBytes(u[..4]);
    ParseHexBytes(u[4..6]);
    ParseHexBytes(u[6..8]);
    ParseHexBytes(u[8..10]);
    ParseHexBytes(u[10..]);
    ParseHexOfPieces(s, u[..4], u[4..6], u[6..8], u[8..10], u[10..]);
    Reassemble(u);
  }

  lemma Reassemble(u: Uuid)
    ensures u[..4] + u[4..6] + u[6..8] + u[8..10] + u[10..] == u
  {
  }

  /** A dashed text whose five groups decode decodes to their concatenation. */
  lemma ParseHexOfPieces(s: string, a: seq<Byte>, b: seq<Byte>, c: seq<Byte>, d: seq<Byte>, e: seq<Byte>)
    requires |s| == 36 && s[8] == '-' && s[13] == '-' && s[18] == '-' && s[23] == '-'
    requires ParseBytes(s[..8]) == Some(a) && ParseBytes(s[9..13]) == Some(b)
    requires ParseBytes(s[14..18]) == Some(c) && ParseBytes(s[19..23]) == Some(d)
    requires ParseBytes(s[24..]) == Some(e)
    ensures |a + b + c + d + e| == 16
    ensures ParseHex(s) == Some(a + b + c + d + e)
  {
  }

  /** A text that decodes is its five digit groups joined by dashes. */
  lemma DashedPieces(s: string)
    requires ParseHex(s).Some?
    ensures s == s[..8] + "-" + s[9..13] + "-" + s[14..18] + "-" + s[19..23] + "-" + s[24..]
  {
  }

  /** The bytes of a decoded id are the bytes of its five digit groups. */
  lemma ParsedPieces(s: string, u: Uuid)
    requires ParseHex(s) == Some(u)
    ensures ParseBytes(s[..8]) == Some(u[..4])
    ensures ParseBytes(s[9..13]) == Some(u[4..6])
    ensures ParseBytes(s[14..18]) == Some(u[6..8])
    ensures ParseBytes(s[19..23]) == Some(u[8..10])
    ensures ParseBytes(s[24..]) == Some(u[10..])
  {
    var a := ParseBytes(s[..8]).value;
    var b := ParseBytes(s[9..13]).value;
    var c := ParseBytes(s[14..18]).value;
    var d := ParseBytes(s[19..23]).value;
    var e := ParseBytes(s[24..]).value;
    assert u == a + b + c + d + e;
    assert |a| == 4 && |b| == 2 && |c| == 2 && |d| == 2 && |e| == 6;
    assert u[..4] == a && u[10..] == e;
    assert u[4..6] == b by { assert (a + b)[4..6] == b; }
    assert u[6..8] == c by { assert (a + b + c)[6..8] == c; }
    assert u[8..10] == d by { assert (a + b + c + d)[8..10] == d; }
  }

  /** Whatever decodes is the text form of what it decodes to. */
  lemma HexRoundTrip(s: string, u: Uuid)
    requires ParseHex(s) == Some(u)
    ensures Hex(u) == s
  {
    ParsedPieces(s, u);
    HexParsedBytes(s[..8], u[..4]);
    HexParsedBytes(s[9..13], u[4..6]);
    HexParsedBytes(s[14..18], u[6..8]);
    HexParsedBytes(s[19..23], u[8..10]);
    HexParsedBytes(s[24..], u[10..]);
    DashedPieces(s);
  }

  /** Distinct ids have distinct text forms, so matching on the text matches the id. */
  lemma HexInjective(u: Uuid, v: Uuid)
    ensures Hex(u) == Hex(v) <==> u == v
  {
    ParseHexRoundTrip(u);
    ParseHexRoundTrip(v);
  }
}
